=== FILE: README.md ===
# Arcade racer per-tick rules, modelled in Dafny

This project models the decision logic of a small Unity arcade racing game
as pure step functions over exact `real`, `int` and `bool` state, and proves
properties of those steps. It covers these parts of the game:

- **Drift scoring** (`DriftScoringSystem`). Each frame it decides whether the
  car is drifting. It uses the drift angle, the speed and the car
  controller's slip flag. While the car drifts, the meter advances the drift
  clock, grows a capped multiplier and recomputes the provisional points from
  the elapsed time. When the drift ends, the points go into the running
  total and the drift is reset.
- **Pursuit controller** (`AICarController` in `AICarFollower.cs`). It
  predicts a follow point behind the player and adds an avoidance push from
  five obstacle rays. It then computes a three-band target throttle and a
  proportional steering command, attenuated by speed. Both are low-pass
  filtered, and the controller emits equal motor and brake torques to all
  four wheels and eased steer angles to the front wheels.
- **Race session** (`GameUIController`). It covers coin pickups, the win
  condition, game over, the timer guard and the `Coins: n/m` counter text.
- **Car selection and spawning** (`SelectableCar`, `CarSpawner`). A
  selection click is debounced and removes every other car. At race start the
  game keeps only the cars whose name is the selection or the selection plus
  `(Clone)`, and moves the last of them to the spawn point.
- **Car lights** (`CarLightSystem`). The model covers the switch, the
  intensity rules for headlights and brakelights, and bulb emission.

Engine services are parameters:

- Geometry and physics results are inputs: the drift angle, speeds,
  `sin(time * 0.5)`, ray hits and the unit directions of the side rays.
- The controlled car's `InverseTransformPoint` and distance queries are total
  functions. The tick calls them on the target it has just computed.
- Key state is passed as booleans.
- The preference store is an `Option<string>`.
- Scene objects are sequences of identities or named cars.

Files: `unity_math.dfy` holds the engine's `Mathf` helpers with their edge
cases, and `vectors.dfy`, `optional.dfy` and `decimal_text.dfy` hold shared
types. There is one module per script: `drift_scoring.dfy`,
`ai_car_controller.dfy`, `game_ui.dfy`, `selectable_car.dfy`,
`car_spawner.dfy` and `car_light_system.dfy`.

The model keeps these behaviours of the scripts, which a reader might not expect:

- A frame without a car controller returns before doing anything. A drift in
  progress is therefore kept, not ended as "not drifting".
- The first drifting frame already advances the clock and scores. It does
  not only raise the flag.
- There are no drift start or end events. The script only toggles an
  indicator, which the model represents by `isDrifting`.
- The speed factor uses `Mathf.InverseLerp`, which gives 0 when
  `minSpeed == maxSpeed`. The model does not divide by zero there.
- The steering attenuation `1 − speed/maxSpeed·csf` is not clamped. Above
  `maxSpeed/csf` it turns negative and reverses the steering. Above
  `2·maxSpeed/csf` the cornering scale itself leaves [−1,1], so a large enough
  raw command is pushed outside [−1,1] (`SteeringLeavesRangeExample`). The script never caps the speed
  at `maxSpeed`, which only serves as an end of the speed factor and as this
  divisor. The throttle, in contrast, stays in range at every speed.
- Collecting the last coin stops the race but is not game over. Later pickups
  still count and start the win display again.

## Model

| member | source | states |
|---|---|---|
| DriftScoring.Update | Assets/scripts/DriftScoringSystem.cs:40-64 | A frame without a controller changes nothing. Otherwise the car is drifting afterwards iff angle > min angle, speed > min speed and the slip flag are all true. A drifting frame advances time by dt, caps the grown multiplier and recomputes points from time, multiplier and angle factor. A frame ending a drift banks the points and resets time, points and multiplier to 0/0/1. An idle frame while not drifting changes nothing. |
| DriftScoring.AngleFactor | Assets/scripts/DriftScoringSystem.cs:72 | The angle factor always lies in [0,1]. When the min angle is below the max angle, the factor is 1 at or beyond the max angle and, in between, the exact fraction of the way from min to max angle. |
| DriftScoring.CalculateDriftPoints | Assets/scripts/DriftScoringSystem.cs:66-76 | The multiplier never exceeds its cap. With non-negative growth and dt it never decreases and stays at least 1. Points are recomputed from the current drift time, not accumulated. |
| DriftScoring.EndDrift | Assets/scripts/DriftScoringSystem.cs:85-95 | Ending a drift adds the provisional points to the total and resets points, time, multiplier and the flag to 0, 0, 1 and false. |
| DriftScoring.StartDrift | Assets/scripts/DriftScoringSystem.cs:78-83 | Starting a drift sets the flag and changes nothing else, so the displayed score is unchanged. |
| DriftScoring.DisplayScore | Assets/scripts/DriftScoringSystem.cs:100 | With a non-negative total and provisional score, the shown score is at least the banked total and is not negative. With no points in progress it is the banked total. |
| DriftScoring.InitialValid | Assets/scripts/DriftScoringSystem.cs:23-27 | The initial meter (multiplier 1, all else zero) satisfies the meter invariant. |
| DriftScoring.DriftPointsBounds | Assets/scripts/DriftScoringSystem.cs:72-73 | Because the angle factor is in [0,1], the points lie between t·pps·m and 2·t·pps·m. |
| DriftScoring.UpdatePreservesValid | Assets/scripts/DriftScoringSystem.cs:54-91 | With pps ≥ 0, growth ≥ 0, max multiplier ≥ 1 and dt ≥ 0, each frame keeps the following: multiplier in [1, max], non-negative time and total, points within the angle-factor bounds, and an idle meter fully reset. |
| DriftScoring.UpdateMonotone | Assets/scripts/DriftScoringSystem.cs:60-91 | The banked total never decreases. During a continuing drift the multiplier never decreases. |
| DriftScoring.RunInvariant | Assets/scripts/DriftScoringSystem.cs:40-91 | Over any sequence of frames with non-negative dt, the meter stays valid and the total never decreases. |
| DriftScoring.EndDriftKeepsDisplayScore | Assets/scripts/DriftScoringSystem.cs:85-100 | The displayed score (total + current) is the same just before and just after a drift ends. |
| DriftScoring.FirstDriftingFrame | Assets/scripts/DriftScoringSystem.cs:54-58 | The first drifting frame from a fresh meter sets the flag, sets time to dt and already scores dt·pps·m·(1+angle factor). |
| DriftScoring.ZeroTimeIdempotent | Assets/scripts/DriftScoringSystem.cs:54-63 | Repeating a frame with dt = 0 changes nothing beyond the first application. |
| DriftScoring.OneSecondDriftExample | Assets/scripts/DriftScoringSystem.cs:8-73 | With the shipped settings, a 30° drift at speed 15 held for 1 s gives multiplier 1.2, angle factor 1/3 and 80 points. |
| DriftScoring.EndDriftExample | Assets/scripts/DriftScoringSystem.cs:60-91 | Ending a drift worth 120 banks exactly 120 and resets the meter to 0/0/1. |
| AICarController.FixedUpdate | Assets/scripts/AICarFollower.cs:46-54 | Without a player the tick changes nothing. Otherwise it stores the new follow point and avoidance vector. All four wheels get the same motor torque accelMult·50·throttle. All four get the same brake torque, which is the brake force exactly when the player is within 0.6·follow and the speed is above 10, and 0 otherwise. Each front steer angle lies between its previous value and steering·maxSteeringAngle, and equal front angles stay equal. Rear steer angles do not change. |
| AICarController.ApplyDrivingLogic | Assets/scripts/AICarFollower.cs:98-133 | Throttle moves toward the band target for the distance to this tick's follow point, and never past it. Steering moves toward the speed-adjusted command for the local position of target + avoidance, and never past it. dt = 0 keeps both. The motor and brake torques are uniform as above. The front steer angles ease toward steering·maxSteeringAngle without passing it, and the rear ones do not change. |
| AICarController.TargetPosition | Assets/scripts/AICarFollower.cs:56-67 | For orthonormal player axes, the follow point lies exactly followDistance behind the predicted position (position + velocity·predictionTime) along the forward axis, and 2·lateralPhase across it along the right axis, whatever the phase. With a unit right axis and the phase in [−1,1], which is the range of the sine, the sideways offset is at most 2 long. |
| AICarController.TargetBehindPlayerAtRest | Assets/scripts/AICarFollower.cs:60-63 | A player at rest with zero lateral phase is followed from exactly followDistance behind, along its forward axis. |
| AICarController.CalculateAvoidance | Assets/scripts/AICarFollower.cs:69-96 | The avoidance vector is the front push (5·normal on a hit) minus 3 times the sum of the unit directions of the side rays that hit. |
| AICarController.SideAvoidanceClosedForm | Assets/scripts/AICarFollower.cs:88-95 | Subtracting 3·direction ray by ray equals one subtraction of 3 times the summed hit directions. |
| AICarController.NoObstacleNoAvoidance | Assets/scripts/AICarFollower.cs:71-95 | With no ray hit, the avoidance vector is zero. |
| AICarController.FrontHitAvoidance | Assets/scripts/AICarFollower.cs:74-78 | A front hit alone gives exactly 5·normal. |
| AICarController.SingleSideHitAvoidance | Assets/scripts/AICarFollower.cs:88-95 | A single side hit alone gives exactly −3·its unit direction. |
| AICarController.SpeedFactor | Assets/scripts/AICarFollower.cs:105 | The speed factor lies in [0,1] for any speed. For minSpeed < maxSpeed it is 0 at or below min, 1 at or above max, and the exact fraction in between. |
| AICarController.TargetThrottle | Assets/scripts/AICarFollower.cs:106-117 | There are three bands: 1 − speedFactor·accelSens beyond 0.8·follow, −brakeSens below 0.5·follow, and 0 in between. With brakeSens ≥ 0 and 0 ≤ accelSens ≤ 1 + brakeSens, the target lies in [−brakeSens, 1]. |
| AICarController.SmoothThrottle | Assets/scripts/AICarFollower.cs:119 | The smoothed throttle lies between the previous throttle and the target. dt ≤ 0 keeps the previous throttle. For 0 ≤ 3·dt ≤ 1 the remaining gap to the target shrinks by exactly the factor 1 − 3·dt. For 3·dt ≥ 1 the throttle reaches the target. |
| AICarController.RawSteering | Assets/scripts/AICarFollower.cs:122-123 | Raw steering is in [−1,1]. A target with local z ≤ 1 uses x·sharpness alone, because the denominator is floored at 1. Otherwise it uses x/z·sharpness, clamped. |
| AICarController.SpeedAdjustedSteering | Assets/scripts/AICarFollower.cs:126 | While the cornering scale 1 − speed/maxSpeed·csf lies in [−1,1], the magnitude of the adjusted steering is at most that of the raw steering. That includes every speed in [0, maxSpeed] with a cornering factor in [0,1]. At rest the steering is unchanged. At top speed it is scaled by 1 − cornering factor. |
| AICarController.CorneringScaleRange | Assets/scripts/AICarFollower.cs:126 | With maxSpeed > 0, the cornering scale lies in [−1,1] iff speed·csf lies in [0, 2·maxSpeed]. It is negative iff speed·csf exceeds maxSpeed. |
| AICarController.SteeringReversesAtHighSpeed | Assets/scripts/AICarFollower.cs:126 | Above maxSpeed/csf the adjusted command has the opposite sign to the raw one, so the car steers away from the target. |
| AICarController.SteeringLeavesRangeExample | Assets/scripts/AICarFollower.cs:9-22 | With the shipped settings, full steering at speed 400 comes out at −2.5, outside [−1,1]. |
| AICarController.SmoothSteering | Assets/scripts/AICarFollower.cs:127 | The smoothed steering lies between the previous steering and the adjusted command. dt ≤ 0 keeps the previous steering. For 0 ≤ 5·dt ≤ 1 the remaining gap to the command shrinks by exactly the factor 1 − 5·dt. For 5·dt ≥ 1 the steering reaches the command. |
| AICarController.ApplyMotorTorque | Assets/scripts/AICarFollower.cs:135-143 | All four wheels get the same torque accelMult·50·throttle, with the throttle's sign when the multiplier is positive. Their other commands do not change. |
| AICarController.ApplySteering | Assets/scripts/AICarFollower.cs:145-158 | Each front steer angle lies between its previous value and steering·maxSteeringAngle. Equal front angles stay equal. Rear wheels do not change. |
| AICarController.ShouldBrake | Assets/scripts/AICarFollower.cs:162-163 | The car brakes exactly when the player is closer than 0.6·followDistance and the speed is above 10. |
| AICarController.BrakeMonotone | Assets/scripts/AICarFollower.cs:162-163 | If the car brakes at some distance and speed, it also brakes at any smaller distance and any higher speed. |
| AICarController.ApplyBrakes | Assets/scripts/AICarFollower.cs:160-171 | All four wheels get the brake force when braking and 0 otherwise. Their other commands do not change. |
| AICarController.ThrottleFollowsBand | Assets/scripts/AICarFollower.cs:100-119 | After a tick with a player, the throttle lies between the previous throttle and the band target for the distance to the newly computed follow point. |
| AICarController.DrivingLogicThrottleInRange | Assets/scripts/AICarFollower.cs:104-119 | With brakeSens ≥ 0 and 0 ≤ accelSens ≤ 1 + brakeSens, the driving logic keeps throttle in [−brakeSens, 1] at every speed. |
| AICarController.DrivingLogicSteeringInRange | Assets/scripts/AICarFollower.cs:121-127 | While the tick's cornering scale lies in [−1,1], the driving logic keeps steering in [−1,1]. |
| AICarController.FixedUpdateThrottleInRange | Assets/scripts/AICarFollower.cs:46-119 | Under the same throttle settings, one tick keeps throttle in [−brakeSens, 1] at every speed, with or without a player. |
| AICarController.FixedUpdateSteeringInRange | Assets/scripts/AICarFollower.cs:46-127 | One tick whose cornering scale lies in [−1,1] keeps steering in [−1,1]. |
| AICarController.RunThrottleInRange | Assets/scripts/AICarFollower.cs:46-119 | Over any run, at any speeds, throttle stays in [−brakeSens, 1]. |
| AICarController.RunSteeringInRange | Assets/scripts/AICarFollower.cs:46-127 | Over any run whose ticks all keep the cornering scale in [−1,1], steering stays in [−1,1]. |
| AICarController.FarTargetThrottlesUp | Assets/scripts/AICarFollower.cs:105-119 | With the shipped settings, a controller at rest with its target 20 units away (beyond 0.8 of the follow distance of 15) gets a positive throttle after any positive step. |
| AICarController.DefaultsSane | Assets/scripts/AICarFollower.cs:9-22 | The shipped settings meet the throttle range conditions. The zero initial controls are in range. The cornering scale stays in [−1,1] for speeds in [0, 160/0.7]. |
| AICarController.ZeroTimeKeepsControls | Assets/scripts/AICarFollower.cs:119-127 | A tick with zero fixed time step keeps throttle and steering. |
| GameUI.Awake | Assets/scripts/GameUIController.cs:27-34 | A new session is racing and not over, with 0 coins, the start time recorded, the counter written and the timer not yet shown. |
| GameUI.CollectCoin | Assets/scripts/GameUIController.cs:50-61 | After game over a pickup changes nothing. Otherwise coins go up by exactly one and the counter is rewritten. Racing continues iff the new count is below the total, and the win display starts iff it is not. Game over, total, timer and start time do not change. |
| GameUI.TriggerGameOver | Assets/scripts/GameUIController.cs:85-101 | Game over stops the race and shows the game-over text. Coins and counter do not change. A second call changes nothing. |
| GameUI.ShowWinText | Assets/scripts/GameUIController.cs:68-74 | Showing the win text stops the race and counts one more display. Nothing else changes. |
| GameUI.CoinsText | Assets/scripts/GameUIController.cs:63-66 | The counter starts with "Coins: ", and parsing it gives back exactly the collected and total numbers it was written from. |
| GameUI.Update | Assets/scripts/GameUIController.cs:36-48 | The timer shows now − start only while racing. Once the race has stopped the frame changes nothing. Nothing else ever changes. |
| GameUI.CoinsTextRoundTrip | Assets/scripts/GameUIController.cs:63-66 | The counter text `Coins: c/t` reads back to exactly (c, t), for every pair of ints. |
| GameUI.StepConsistent | Assets/scripts/GameUIController.cs:36-101 | Every event keeps the session consistent. Consistent means: the counter matches the numbers, coins are non-negative, game over and a shown win both imply not racing, and the game-over text is shown iff the game is over. An event never loses a coin, keeps total and start time, keeps a stopped race stopped with its timer frozen, and counts no coin after game over. |
| GameUI.RunProperties | Assets/scripts/GameUIController.cs:36-101 | Over any event sequence: the session stays consistent, coins never decrease, and total and start time are fixed. A stopped race stays stopped with its timer frozen. After game over, coins are frozen. |
| GameUI.WinIsNotGameOver | Assets/scripts/GameUIController.cs:57-70 | Reaching the total stops racing without setting game over, so a further pickup still counts. |
| GameUI.GameOverIdempotent | Assets/scripts/GameUIController.cs:87-90 | Triggering game over twice is the same as once. |
| GameUI.CollectRemaining | Assets/scripts/GameUIController.cs:50-74 | During a race that has not been won, collecting exactly the missing coins reaches the total, stops the race, shows the win text once and is not game over. |
| GameUI.TenCoinsWin | Assets/scripts/GameUIController.cs:17-59 | With the default 10 coins, ten pickups from a fresh session win once, without game over. |
| DecimalText.NatRoundTrip | Assets/scripts/GameUIController.cs:65 | The decimal digits of a count read back to that count. |
| DecimalText.IntRoundTrip | Assets/scripts/GameUIController.cs:65 | The interpolated rendering of an int, sign included, reads back to that int. |
| SelectableCar.OnMouseDown | Assets/scripts/SelectableCar.cs:27-42 | A click is accepted iff at least doubleClickTime has passed since the last accepted click. An ignored click changes nothing. An accepted click records its time, stores carName as the selection and leaves only this car among the tagged cars. |
| SelectableCar.CleanupOtherCars | Assets/scripts/SelectableCar.cs:67-78 | Only this car remains, and it remains as often as it was listed. |
| SelectableCar.OnlySelfRemains | Assets/scripts/SelectableCar.cs:67-78 | If this car is listed once, the tagged set becomes exactly [this car]. |
| SelectableCar.AcceptedClicksSpaced | Assets/scripts/SelectableCar.cs:30-34 | In any click sequence, accepted clicks are at least doubleClickTime apart, and the first is at least that long after the starting lastClickTime. The final lastClickTime is the last accepted time. |
| SelectableCar.EarlyClickIgnored | Assets/scripts/SelectableCar.cs:12-33 | Since lastClickTime starts at 0, a click earlier than doubleClickTime is ignored. |
| CarSpawner.SelectedCarName | Assets/scripts/CarSpawner.cs:10 | The selection is the stored name, or "Car1" when none is stored. |
| CarSpawner.Start | Assets/scripts/CarSpawner.cs:8-46 | A car is kept iff its name is the selection or the selection + "(Clone)", and destroyed otherwise, in listing order. The selected car is the last match, and there is none iff nothing matches. The surviving cars are the kept ones, with only the selected one moved to the spawn pose. |
| CarSpawner.ClickSelectsForSpawn | Assets/scripts/CarSpawner.cs:10-17 | After an accepted selection click, the spawner looks for the clicked car's name. |
| CarLightSystem.StatusIntensity | Assets/scripts/CarLightSystem.cs:91-102 | A brakelight with the effect gets maxIntensity when braking and baseIntensity otherwise, whatever the switch. Any other light gets baseIntensity if on and 0 if off. |
| CarLightSystem.UpdateLightVisualization | Assets/scripts/CarLightSystem.cs:107-122 | With a bulb mesh, emission is on iff intensity > 0. Without one nothing changes. |
| CarLightSystem.InitializeLight | Assets/scripts/CarLightSystem.cs:42-66 | A new light is on at baseIntensity with the configured range and angle. Headlights get soft shadows and ForcePixel, brakelights no shadows and Auto. Emission matches. |
| CarLightSystem.UpdateLightStatus | Assets/scripts/CarLightSystem.cs:91-105 | The intensity follows the status rule, and with a mesh the emission matches it. Nothing else changes. |
| CarLightSystem.ToggleLights | Assets/scripts/CarLightSystem.cs:82-89 | Toggling flips the switch and refreshes the intensity, unless the light is always on, in which case nothing changes. |
| CarLightSystem.Update | Assets/scripts/CarLightSystem.cs:68-80 | The switch flips iff the toggle key is down and the light is not always on. The intensity follows the status rule for the braking keys. |
| CarLightSystem.RunDisplayed | Assets/scripts/CarLightSystem.cs:68-122 | Over any frames, emission keeps matching mesh and intensity > 0, and an always-on light stays switched on. |
| CarLightSystem.RunLastFrame | Assets/scripts/CarLightSystem.cs:68-105 | After any frames, the intensity is the one the last frame's braking keys and the switch select. |
| CarLightSystem.DefaultHeadlightShowsBase | Assets/scripts/CarLightSystem.cs:10-19 | The shipped headlight settings keep the light at intensity 3 after every non-empty run, whatever keys are pressed. |
| CarLightSystem.AlwaysOnHeadlight | Assets/scripts/CarLightSystem.cs:17-102 | An always-on headlight shines at baseIntensity after every frame. |
| CarLightSystem.BrakelightIgnoresSwitch | Assets/scripts/CarLightSystem.cs:94-98 | A brakelight with the effect gets the same intensity whether switched on or off. |
| CarLightSystem.ToggleTwice | Assets/scripts/CarLightSystem.cs:84-88 | Toggling twice restores the switch. |
| UnityMath.Min | Assets/scripts/DriftScoringSystem.cs:69 | The result is one of the arguments and is no larger than either. |
| UnityMath.Max | Assets/scripts/AICarFollower.cs:122 | The result is one of the arguments and is no smaller than either. |
| UnityMath.Clamp | Assets/scripts/AICarFollower.cs:123 | With lo ≤ hi the result lies in [lo, hi]. A value already inside is unchanged, a value below lo gives lo, and a value above hi gives hi. |
| UnityMath.Clamp01 | Assets/scripts/DriftScoringSystem.cs:72 | The result lies in [0,1]. It is the value itself inside [0,1], 0 below and 1 above. |
| UnityMath.InverseLerp | Assets/scripts/AICarFollower.cs:105 | The result is in [0,1] and is 0 when both ends coincide. Otherwise it is 0 on the side of a, 1 on the side of b, and the exact fraction in between, for ascending and for descending ends. |
| UnityMath.Lerp | Assets/scripts/AICarFollower.cs:119 | The result lies between both ends. It is the start for t ≤ 0 and the end for t ≥ 1. For t in [0,1] the distance left to the end is exactly (b − a)·(1 − t). |

## Left out

- Engine geometry and transcendental functions are inputs, not computed. This covers `atan2` for the drift angle, `InverseTransformPoint`/`InverseTransformDirection`, `Vector3.Distance`, velocity magnitudes, `sin(time * 0.5)`, normalisation of the side-ray directions and the ray casts themselves.
- IEEE float rounding, infinities and NaN are not modelled: scalars are exact reals.
- Number formatting is left out: `Mathf.RoundToInt` and the `F1` / `0.00` renderings of the drift score, multiplier and timer texts. The timer keeps the elapsed value it would show.
- 32-bit wrap-around of `collectedCoins` is not modelled. It would need over two billion pickups.
- AICarController.FixedUpdate: requires `maxSpeed != 0`. With zero, the float division in the steering attenuation gives infinity or NaN, which exact reals cannot represent. The same requirement, for the same reason, is on the members below.
- AICarController.CorneringScale: requires `maxSpeed != 0`, as above.
- AICarController.SpeedAdjustedSteering: requires `maxSpeed != 0`, as above.
- AICarController.ApplyDrivingLogic: requires `maxSpeed != 0`, as above.
- AICarController.Run: requires `maxSpeed != 0`, as above.
- AICarController.ThrottleFollowsBand: requires `maxSpeed != 0`, as above.
- AICarController.ZeroTimeKeepsControls: requires `maxSpeed != 0`, as above.
- AICarController.DrivingLogicThrottleInRange: requires `maxSpeed != 0`, as above. The same holds for FixedUpdateThrottleInRange, RunThrottleInRange, DrivingLogicSteeringInRange, FixedUpdateSteeringInRange and RunSteeringInRange.
- DecimalText.IntRoundTrip: renders a negative number with a leading `-`. This matches the script's string interpolation only under a culture whose negative sign is `-`. Culture-specific formatting is not modelled.
- CarLightSystem.InitializeLight: does not model the light colour or the assignment of `LightType.Spot`. Colour is rendering only. The type is always set to a spot light, so the model has no field for it.
- Null references are not modelled. The scripts throw at these points, and the model assumes the objects exist:
  - a player car without a `Rigidbody` aborts the tick in `CalculateTargetPosition` (AICarFollower.cs lines 59-60) before anything is stored;
  - a missing spawn point throws in `CarSpawner.Start` (CarSpawner.cs line 30), after the other cars were destroyed and before the cameras are enabled;
  - unset text fields throw in `Awake`, `UpdateTimer` and `UpdateUI` (GameUIController.cs lines 32-33, 47 and 65).
- DriftScoring.AngleFactor: requires the angle to exceed `minDriftAngle`, which holds wherever the script evaluates it. When both angle thresholds are equal it returns 1, the clamp of the positive infinity the float division gives.
- Rendering is not modelled:
  - `UpdateWheelVisuals`, gizmos and the drift indicator's `SetActive`;
  - Cinemachine camera set-up (`SetupCamera`, enabling the spawned car's cameras);
  - light colour, range and angle in `OnValidate`, emission colour and hover colours.
- Engine services are abstracted:
  - the preference store is `World.selectedCar` or a parameter;
  - tag lookups are the listed cars;
  - `Destroy`, which the engine defers to the end of the frame, is immediate removal;
  - `AICarController.Start`, which finds the player by tag and disables touch input, is not modelled.
- Coroutine timing (hiding the win text after `winTextDuration`), animator triggers and debug logging are not modelled.
- Other scripts are pure glue or float animation and are not part of this model: coin spinning, audio, scene and level selection, quitting on Escape, and the bomb and coin triggers, which only forward to the session.

=== FILE: ai_car_controller.dfy ===
/** The pursuit controller of `AICarController` (file AICarFollower.cs):
    each physics tick it predicts where the player will be, places a follow
    point behind it, senses obstacles, and turns the result into smoothed
    throttle and steering and into per-wheel motor, steer and brake
    commands.

    Engine geometry comes in already computed: the controlled car's
    `InverseTransformPoint` and distance queries are total functions in
    `SelfView`, evaluated by the tick on the target it has just computed;
    `sin(time * 0.5)` is the scalar `lateralPhase`; the ray casts are their
    outcomes (the front hit's normal, and per side ray its unit direction
    and whether it hit). */
module AICarController {
  import opened UnityMath
  import opened Vectors
  import opened Optional

  /** The inspector settings. */
  datatype Params = Params(
    followDistance: real,
    maxSpeed: real,
    minSpeed: real,
    steeringSharpness: real,
    avoidanceDistance: real,
    predictionTime: real,
    accelerationSensitivity: real,
    brakeSensitivity: real,
    corneringSpeedFactor: real)

  /** The values the script ships with. */
  const Defaults := Params(15.0, 80.0, 20.0, 2.0, 8.0, 1.0, 0.5, 1.0, 0.7)

  /** The settings read from the car's own drivetrain controller. */
  datatype Drivetrain = Drivetrain(
    accelerationMultiplier: real,
    maxSteeringAngle: real,
    steeringSpeed: real,
    brakeForce: real)

  /** The three commands a wheel collider carries. */
  datatype Wheel = Wheel(motorTorque: real, steerAngle: real, brakeTorque: real)

  datatype Wheels = Wheels(frontLeft: Wheel, frontRight: Wheel, rearLeft: Wheel, rearRight: Wheel)

  /** The private fields kept from one tick to the next. */
  datatype State = State(throttle: real, steering: real, targetPosition: Vec3, avoidance: Vec3)

  const Initial := State(0.0, 0.0, Zero, Zero)

  /** The followed car's pose and velocity. */
  datatype Player = Player(position: Vec3, velocity: Vec3, forward: Vec3, right: Vec3)

  /** One side ray: its unit direction and whether it hit an obstacle. */
  datatype SideProbe = SideProbe(unitDirection: Vec3, hit: bool)

  /** The outcome of the five obstacle rays of one tick. */
  datatype Sensing = Sensing(frontHitNormal: Option<Vec3>, sideProbes: seq<SideProbe>)

  /** The controlled car's geometry queries and its speed this tick. */
  datatype SelfView = SelfView(localPoint: Vec3 -> Vec3, distanceTo: Vec3 -> real, speed: real)

  /** Everything one tick reads from the engine. `player` is `None` when
      no player car is assigned. */
  datatype Frame = Frame(
    player: Option<Player>,
    lateralPhase: real,
    sensing: Sensing,
    view: SelfView,
    fixedDeltaTime: real)

  datatype Tick = Tick(state: State, wheels: Wheels)

  // ---------------------------------------------------------------- target

  /** Where the player will be `predictionTime` from now at its current
      velocity. */
  function Predicted(p: Params, pl: Player): Vec3
  {
    Add(pl.position, Scale(pl.velocity, p.predictionTime))
  }

  /** The player's forward and right axes form an orthonormal pair, as the
      axes of an engine transform do. */
  predicate Orthonormal(pl: Player)
  {
    Dot(pl.forward, pl.forward) == 1.0 && Dot(pl.right, pl.right) == 1.0 && Dot(pl.forward, pl.right) == 0.0
  }

  /** `CalculateTargetPosition`: the predicted position, moved
      `followDistance` back along the player's forward axis and
      `2 * lateralPhase` along its right axis. Along the forward axis the
      follow point is exactly `followDistance` behind the prediction, across
      it the offset is `2 * lateralPhase`, whatever the phase; and since the
      phase is a sine, the sideways offset is at most 2 long. */
  function TargetPosition(p: Params, pl: Player, lateralPhase: real): (t: Vec3)
    ensures Orthonormal(pl) ==> Dot(Sub(Predicted(p, pl), t), pl.forward) == p.followDistance
    ensures Orthonormal(pl) ==> Dot(Sub(t, Predicted(p, pl)), pl.right) == 2.0 * lateralPhase
    ensures Dot(pl.right, pl.right) == 1.0 && -1.0 <= lateralPhase <= 1.0 ==>
              var lateral := Sub(t, Sub(Predicted(p, pl), Scale(pl.forward, p.followDistance)));
              Dot(lateral, lateral) <= 4.0
  {
    var behind := Sub(Predicted(p, pl), Scale(pl.forward, p.followDistance));
    var t := Add(behind, Scale(Scale(pl.right, lateralPhase), 2.0));
    TargetGeometry(pl.forward, pl.right, p.followDistance, lateralPhase, Predicted(p, pl), t);
    t
  }

  /** The geometry behind `TargetPosition`'s contract, for a point
      `t = predicted - fd * forward + 2 * phase * right`. */
  lemma TargetGeometry(forward: Vec3, right: Vec3, fd: real, phase: real, predicted: Vec3, t: Vec3)
    requires t == Add(Sub(predicted, Scale(forward, fd)), Scale(Scale(right, phase), 2.0))
    ensures Dot(forward, forward) == 1.0 && Dot(forward, right) == 0.0 ==>
              Dot(Sub(predicted, t), forward) == fd
    ensures Dot(right, right) == 1.0 && Dot(forward, right) == 0.0 ==>
              Dot(Sub(t, predicted), right) == 2.0 * phase
    ensures Dot(right, right) == 1.0 && -1.0 <= phase <= 1.0 ==>
              var lateral := Sub(t, Sub(predicted, Scale(forward, fd)));
              Dot(lateral, lateral) <= 4.0
  {
    var side := Scale(right, 2.0 * phase);
    assert Sub(predicted, t) == Sub(Scale(forward, fd), side);
    assert Sub(t, predicted) == Sub(side, Scale(forward, fd));
    assert Sub(t, Sub(predicted, Scale(forward, fd))) == side;
    DotOfDifference(forward, right, forward, fd, 2.0 * phase);
    DotOfDifference(right, forward, right, 2.0 * phase, fd);
    DotOfDifference(right, right, right, 2.0 * phase, 0.0);
    assert Sub(side, Scale(right, 0.0)) == side;
    DotOfDifference(right, right, side, 2.0 * phase, 0.0);
    assert Dot(right, forward) == Dot(forward, right);
    assert Dot(right, side) == Dot(side, right);
    if -1.0 <= phase <= 1.0 {
      MulNonneg(1.0 - phase, 1.0 + phase);
      assert (2.0 * phase) * (2.0 * phase) == 4.0 * (phase * phase);
    }
    Weighted(fd, 2.0 * phase, Dot(forward, forward), Dot(forward, right), Dot(right, right));
  }

  /** The dot product is linear in its first argument. */
  lemma DotOfDifference(a: Vec3, b: Vec3, c: Vec3, k: real, m: real)
    ensures Dot(Sub(Scale(a, k), Scale(b, m)), c) == k * Dot(a, c) - m * Dot(b, c)
  {
  }

  /** The scalar steps behind `TargetGeometry`, over the three dot
      products of the player's axes. */
  lemma Weighted(fd: real, side: real, ff: real, fr: real, rr: real)
    ensures ff == 1.0 && fr == 0.0 ==> fd * ff - side * fr == fd
    ensures rr == 1.0 && fr == 0.0 ==> side * rr - fd * fr == side
    ensures rr == 1.0 && side * side <= 4.0 ==> side * (side * rr) <= 4.0
  {
  }

  /** A player at rest, with zero lateral phase, is followed from exactly
      `followDistance` behind along its forward axis. */
  lemma TargetBehindPlayerAtRest(p: Params, pl: Player)
    requires pl.velocity == Zero
    ensures TargetPosition(p, pl, 0.0) == Sub(pl.position, Scale(pl.forward, p.followDistance))
  {
  }

  // ------------------------------------------------------------- avoidance

  /** The front ray pushes along the hit normal with weight 5. */
  function FrontAvoidance(s: Sensing): Vec3
  {
    match s.frontHitNormal
    case Some(n) => Scale(n, 5.0)
    case None => Zero
  }

  /** The side rays, taken in order: each hit subtracts three times its
      unit direction from the accumulator. */
  function SideAvoidance(acc: Vec3, probes: seq<SideProbe>): Vec3
    decreases |probes|
  {
    if |probes| == 0 then acc
    else
      var next := if probes[0].hit then Sub(acc, Scale(probes[0].unitDirection, 3.0)) else acc;
      SideAvoidance(next, probes[1..])
  }

  /** The sum of the unit directions of the side rays that hit. */
  function HitDirections(probes: seq<SideProbe>): Vec3
    decreases |probes|
  {
    if |probes| == 0 then Zero
    else Add(if probes[0].hit then probes[0].unitDirection else Zero, HitDirections(probes[1..]))
  }

  predicate NoSideHits(probes: seq<SideProbe>)
  {
    forall i :: 0 <= i < |probes| ==> !probes[i].hit
  }

  /** The ray-by-ray accumulation equals one subtraction of three times the
      summed hit directions. */
  lemma {:induction false} SideAvoidanceClosedForm(acc: Vec3, probes: seq<SideProbe>)
    ensures SideAvoidance(acc, probes) == Sub(acc, Scale(HitDirections(probes), 3.0))
    decreases |probes|
  {
    if |probes| > 0 {
      var first := if probes[0].hit then probes[0].unitDirection else Zero;
      var rest := HitDirections(probes[1..]);
      var next := Sub(acc, Scale(first, 3.0));
      assert SideAvoidance(acc, probes) == SideAvoidance(next, probes[1..]);
      assert HitDirections(probes) == Add(first, rest);
      SideAvoidanceClosedForm(next, probes[1..]);
      SubScaleAdd(acc, first, rest);
    } else {
      assert Sub(acc, Scale(Zero, 3.0)) == acc;
    }
  }

  /** Subtracting two scaled vectors in turn is subtracting their scaled sum. */
  lemma SubScaleAdd(acc: Vec3, a: Vec3, b: Vec3)
    ensures Sub(Sub(acc, Scale(a, 3.0)), Scale(b, 3.0)) == Sub(acc, Scale(Add(a, b), 3.0))
  {
  }

  /** No side hit, no side push. */
  lemma {:induction false} NoHitsNoDirections(probes: seq<SideProbe>)
    requires NoSideHits(probes)
    ensures HitDirections(probes) == Zero
    decreases |probes|
  {
    if |probes| > 0 {
      NoHitsNoDirections(probes[1..]);
    }
  }

  /** `CalculateAvoidance`: reset, then accumulate the front and side pushes. */
  function CalculateAvoidance(s: Sensing): (a: Vec3)
    ensures a == Sub(FrontAvoidance(s), Scale(HitDirections(s.sideProbes), 3.0))
  {
    SideAvoidanceClosedForm(FrontAvoidance(s), s.sideProbes);
    SideAvoidance(FrontAvoidance(s), s.sideProbes)
  }

  /** With no ray hitting anything there is no avoidance bias. */
  lemma NoObstacleNoAvoidance(s: Sensing)
    requires s.frontHitNormal.None? && NoSideHits(s.sideProbes)
    ensures CalculateAvoidance(s) == Zero
  {
    NoHitsNoDirections(s.sideProbes);
  }

  /** A front hit alone pushes along its normal with weight 5. */
  lemma FrontHitAvoidance(s: Sensing, normal: Vec3)
    requires s.frontHitNormal == Some(normal) && NoSideHits(s.sideProbes)
    ensures CalculateAvoidance(s) == Scale(normal, 5.0)
  {
    NoHitsNoDirections(s.sideProbes);
  }

  /** A single side hit, with no front hit, pushes away from that ray with
      weight 3. */
  lemma SingleSideHitAvoidance(s: Sensing, k: nat)
    requires s.frontHitNormal.None? && k < |s.sideProbes| && s.sideProbes[k].hit
    requires forall i :: 0 <= i < |s.sideProbes| && i != k ==> !s.sideProbes[i].hit
    ensures CalculateAvoidance(s) == Scale(s.sideProbes[k].unitDirection, -3.0)
  {
    OneHitDirection(s.sideProbes, k);
  }

  lemma {:induction false} OneHitDirection(probes: seq<SideProbe>, k: nat)
    requires k < |probes| && probes[k].hit
    requires forall i :: 0 <= i < |probes| && i != k ==> !probes[i].hit
    ensures HitDirections(probes) == probes[k].unitDirection
    decreases |probes|
  {
    if k == 0 {
      NoHitsNoDirections(probes[1..]);
    } else {
      OneHitDirection(probes[1..], k - 1);
    }
  }

  // -------------------------------------------------------------- throttle

  /** Where the speed sits between `minSpeed` and `maxSpeed`, clamped. */
  function SpeedFactor(p: Params, speed: real): (f: real)
    ensures 0.0 <= f <= 1.0
    ensures p.minSpeed < p.maxSpeed && speed <= p.minSpeed ==> f == 0.0
    ensures p.minSpeed < p.maxSpeed && speed >= p.maxSpeed ==> f == 1.0
    ensures p.minSpeed < p.maxSpeed && p.minSpeed <= speed <= p.maxSpeed ==>
              p.minSpeed + f * (p.maxSpeed - p.minSpeed) == speed
  {
    InverseLerp(p.minSpeed, p.maxSpeed, speed)
  }

  /** The settings under which throttle stays within [-brakeSensitivity, 1]. */
  predicate ThrottleParams(p: Params)
  {
    p.brakeSensitivity >= 0.0 && 0.0 <= p.accelerationSensitivity <= 1.0 + p.brakeSensitivity
  }

  predicate ThrottleInRange(p: Params, throttle: real)
  {
    -p.brakeSensitivity <= throttle <= 1.0
  }

  /** The three throttle bands: push when farther than 0.8 of the follow
      distance (easing off with speed), brake when closer than 0.5 of it,
      coast in between. */
  function TargetThrottle(p: Params, distance: real, speedFactor: real): (t: real)
    ensures distance > p.followDistance * 0.8 ==> t == 1.0 - speedFactor * p.accelerationSensitivity
    ensures distance <= p.followDistance * 0.8 && distance < p.followDistance * 0.5 ==> t == -p.brakeSensitivity
    ensures p.followDistance * 0.5 <= distance <= p.followDistance * 0.8 ==> t == 0.0
    ensures ThrottleParams(p) && 0.0 <= speedFactor <= 1.0 ==> ThrottleInRange(p, t)
  {
    if distance > p.followDistance * 0.8 then
      PushBandInRange(p, speedFactor);
      1.0 - speedFactor * p.accelerationSensitivity
    else if distance < p.followDistance * 0.5 then -p.brakeSensitivity
    else 0.0
  }

  lemma PushBandInRange(p: Params, speedFactor: real)
    ensures ThrottleParams(p) && 0.0 <= speedFactor <= 1.0 ==>
              ThrottleInRange(p, 1.0 - speedFactor * p.accelerationSensitivity)
  {
    if ThrottleParams(p) && 0.0 <= speedFactor <= 1.0 {
      MulNonneg(speedFactor, p.accelerationSensitivity);
      MulNonneg(1.0 - speedFactor, p.accelerationSensitivity);
    }
  }

  /** The throttle low-pass filter, rate 3 per second. */
  function SmoothThrottle(current: real, target: real, dt: real): (r: real)
    ensures Min(current, target) <= r <= Max(current, target)
    ensures dt <= 0.0 ==> r == current
    ensures 0.0 <= dt * 3.0 <= 1.0 ==> target - r == (target - current) * (1.0 - dt * 3.0)
    ensures dt * 3.0 >= 1.0 ==> r == target
  {
    Lerp(current, target, dt * 3.0)
  }

  // -------------------------------------------------------------- steering

  /** The proportional steering command on the local target, with the
      forward distance floored at 1 and the result clamped to [-1,1]. */
  function RawSteering(p: Params, localTarget: Vec3): (r: real)
    ensures -1.0 <= r <= 1.0
    ensures localTarget.z <= 1.0 ==> r == Clamp(localTarget.x * p.steeringSharpness, -1.0, 1.0)
    ensures localTarget.z >= 1.0 ==>
              r == Clamp(localTarget.x / localTarget.z * p.steeringSharpness, -1.0, 1.0)
  {
    Clamp((localTarget.x / Max(1.0, localTarget.z)) * p.steeringSharpness, -1.0, 1.0)
  }

  /** The cornering factor applied to the steering at a given speed. */
  function CorneringScale(p: Params, speed: real): real
    requires p.maxSpeed != 0.0
  {
    1.0 - (speed / p.maxSpeed * p.corneringSpeedFactor)
  }

  /** Steering authority shrinks with speed; it is full at rest and reduced
      by the cornering factor at top speed. Its magnitude never grows while
      the cornering scale stays within [-1, 1], which holds on [0, maxSpeed]
      for a cornering factor in [0, 1]. */
  function SpeedAdjustedSteering(p: Params, raw: real, speed: real): (r: real)
    requires p.maxSpeed != 0.0
    ensures -1.0 <= CorneringScale(p, speed) <= 1.0 ==> Abs(r) <= Abs(raw)
    ensures 0.0 <= speed <= p.maxSpeed && 0.0 <= p.corneringSpeedFactor <= 1.0 ==> Abs(r) <= Abs(raw)
    ensures speed == 0.0 ==> r == raw
    ensures speed == p.maxSpeed ==> r == raw * (1.0 - p.corneringSpeedFactor)
  {
    AttenuationShrinks(p, raw, speed);
    raw * CorneringScale(p, speed)
  }

  lemma AttenuationShrinks(p: Params, raw: real, speed: real)
    requires p.maxSpeed != 0.0
    ensures 0.0 <= speed <= p.maxSpeed && 0.0 <= p.corneringSpeedFactor <= 1.0 ==>
              0.0 <= CorneringScale(p, speed) <= 1.0
    ensures -1.0 <= CorneringScale(p, speed) <= 1.0 ==> Abs(raw * CorneringScale(p, speed)) <= Abs(raw)
  {
    if 0.0 <= speed <= p.maxSpeed && 0.0 <= p.corneringSpeedFactor <= 1.0 {
      CorneringScaleBounds(p, speed);
    }
    if -1.0 <= CorneringScale(p, speed) <= 1.0 {
      ScaledAbs(raw, CorneringScale(p, speed));
    }
  }

  lemma CorneringScaleBounds(p: Params, speed: real)
    requires p.maxSpeed != 0.0 && 0.0 <= speed <= p.maxSpeed && 0.0 <= p.corneringSpeedFactor <= 1.0
    ensures 0.0 <= CorneringScale(p, speed) <= 1.0
  {
    var q := speed / p.maxSpeed;
    DivSign(speed, p.maxSpeed);
    MulNonneg(q, p.corneringSpeedFactor);
    MulNonneg(1.0 - q, p.corneringSpeedFactor);
    MulNonneg(q, 1.0 - p.corneringSpeedFactor);
  }

  /** With a positive top speed the cornering scale stays within [-1, 1]
      exactly when `speed * corneringSpeedFactor` lies in
      [0, 2 * maxSpeed]; it is negative, reversing the steering, exactly when
      that product exceeds `maxSpeed`. */
  lemma CorneringScaleRange(p: Params, speed: real)
    requires p.maxSpeed > 0.0
    ensures -1.0 <= CorneringScale(p, speed) <= 1.0
            <==> 0.0 <= speed * p.corneringSpeedFactor <= 2.0 * p.maxSpeed
    ensures CorneringScale(p, speed) < 0.0 <==> speed * p.corneringSpeedFactor > p.maxSpeed
  {
    var q := speed / p.maxSpeed * p.corneringSpeedFactor;
    assert q * p.maxSpeed == speed * p.corneringSpeedFactor;
    ScaledComparisons(q, p.maxSpeed, speed * p.corneringSpeedFactor);
  }

  /** Multiplying by a positive `m` preserves comparisons with 0, 1 and 2. */
  lemma ScaledComparisons(q: real, m: real, v: real)
    requires m > 0.0 && q * m == v
    ensures 0.0 <= q <= 2.0 <==> 0.0 <= v <= 2.0 * m
    ensures q > 1.0 <==> v > m
  {
    if q < 0.0 {
      MulPos(-q, m);
    } else {
      MulNonneg(q, m);
    }
    if q > 2.0 {
      MulPos(q - 2.0, m);
    } else {
      MulNonneg(2.0 - q, m);
    }
    if q > 1.0 {
      MulPos(q - 1.0, m);
    } else {
      MulNonneg(1.0 - q, m);
    }
  }

  lemma ScaledAbs(x: real, k: real)
    requires -1.0 <= k <= 1.0
    ensures Abs(x * k) <= Abs(x)
  {
    var a := if x >= 0.0 then x else -x;
    var b := if k >= 0.0 then k else -k;
    assert Abs(x * k) == a * b;
    MulNonneg(a, b);
    MulNonneg(a, 1.0 - b);
  }

  /** The steering low-pass filter, rate 5 per second. */
  function SmoothSteering(current: real, target: real, dt: real): (r: real)
    ensures Min(current, target) <= r <= Max(current, target)
    ensures dt <= 0.0 ==> r == current
    ensures 0.0 <= dt * 5.0 <= 1.0 ==> target - r == (target - current) * (1.0 - dt * 5.0)
    ensures dt * 5.0 >= 1.0 ==> r == target
  {
    Lerp(current, target, dt * 5.0)
  }

  // ------------------------------------------------------------- actuation

  /** The motor torque the throttle asks for. */
  function MotorTorque(d: Drivetrain, throttle: real): real
  {
    d.accelerationMultiplier * 50.0 * throttle
  }

  /** `ApplyMotorTorque`: one torque for all four wheels. */
  function ApplyMotorTorque(d: Drivetrain, w: Wheels, throttle: real): (r: Wheels)
    ensures r.frontLeft.motorTorque == r.frontRight.motorTorque == r.rearLeft.motorTorque == r.rearRight.motorTorque
    ensures throttle > 0.0 && d.accelerationMultiplier > 0.0 ==> r.frontLeft.motorTorque > 0.0
    ensures throttle < 0.0 && d.accelerationMultiplier > 0.0 ==> r.frontLeft.motorTorque < 0.0
    ensures r.frontLeft.motorTorque == MotorTorque(d, throttle)
    ensures r.frontLeft.steerAngle == w.frontLeft.steerAngle && r.frontRight.steerAngle == w.frontRight.steerAngle
    ensures r.frontLeft.(motorTorque := 0.0) == w.frontLeft.(motorTorque := 0.0)
    ensures r.frontRight.(motorTorque := 0.0) == w.frontRight.(motorTorque := 0.0)
    ensures r.rearLeft.(motorTorque := 0.0) == w.rearLeft.(motorTorque := 0.0)
    ensures r.rearRight.(motorTorque := 0.0) == w.rearRight.(motorTorque := 0.0)
  {
    var torque := MotorTorque(d, throttle);
    TorqueSign(d.accelerationMultiplier * 50.0, throttle);
    Wheels(w.frontLeft.(motorTorque := torque), w.frontRight.(motorTorque := torque),
           w.rearLeft.(motorTorque := torque), w.rearRight.(motorTorque := torque))
  }

  /** A positive gain keeps the sign of the throttle. */
  lemma TorqueSign(gain: real, throttle: real)
    ensures gain > 0.0 && throttle > 0.0 ==> gain * throttle > 0.0
    ensures gain > 0.0 && throttle < 0.0 ==> gain * throttle < 0.0
  {
    if gain > 0.0 && throttle > 0.0 {
      MulPos(gain, throttle);
    }
    if gain > 0.0 && throttle < 0.0 {
      MulPos(gain, -throttle);
    }
  }

  /** The wheel angle the steering command asks for. */
  function SteerAngle(d: Drivetrain, steering: real): real
  {
    steering * d.maxSteeringAngle
  }

  /** `ApplySteering`: each front wheel eases from its own angle toward the
      commanded angle at the drivetrain's steering speed; rear wheels keep
      theirs. */
  function ApplySteering(d: Drivetrain, w: Wheels, steering: real): (r: Wheels)
    ensures var angle := SteerAngle(d, steering);
      && Min(w.frontLeft.steerAngle, angle) <= r.frontLeft.steerAngle <= Max(w.frontLeft.steerAngle, angle)
      && Min(w.frontRight.steerAngle, angle) <= r.frontRight.steerAngle <= Max(w.frontRight.steerAngle, angle)
    ensures w.frontLeft.steerAngle == w.frontRight.steerAngle ==> r.frontLeft.steerAngle == r.frontRight.steerAngle
    ensures r.rearLeft == w.rearLeft && r.rearRight == w.rearRight
    ensures r.frontLeft.(steerAngle := 0.0) == w.frontLeft.(steerAngle := 0.0)
    ensures r.frontRight.(steerAngle := 0.0) == w.frontRight.(steerAngle := 0.0)
  {
    var angle := SteerAngle(d, steering);
    w.(frontLeft := w.frontLeft.(steerAngle := Lerp(w.frontLeft.steerAngle, angle, d.steeringSpeed)),
       frontRight := w.frontRight.(steerAngle := Lerp(w.frontRight.steerAngle, angle, d.steeringSpeed)))
  }

  /** The braking rule: close to the player and faster than 10. */
  function ShouldBrake(p: Params, distanceToPlayer: real, speed: real): (brake: bool)
    ensures brake ==> speed > 10.0 && distanceToPlayer < p.followDistance * 0.6
    ensures speed > 10.0 && distanceToPlayer < p.followDistance * 0.6 ==> brake
  {
    distanceToPlayer < p.followDistance * 0.6 && speed > 10.0
  }

  /** Braking persists when the player gets closer or the car goes
      faster. */
  lemma BrakeMonotone(p: Params, distance: real, speed: real, closer: real, faster: real)
    requires ShouldBrake(p, distance, speed) && closer <= distance && faster >= speed
    ensures ShouldBrake(p, closer, faster)
  {
  }

  /** `ApplyBrakes`: one brake torque for all four wheels, the drivetrain's
      brake force when braking and none otherwise. */
  function ApplyBrakes(d: Drivetrain, w: Wheels, brake: bool): (r: Wheels)
    ensures r.frontLeft.brakeTorque == r.frontRight.brakeTorque == r.rearLeft.brakeTorque == r.rearRight.brakeTorque
    ensures brake ==> r.frontLeft.brakeTorque == d.brakeForce
    ensures !brake ==> r.frontLeft.brakeTorque == 0.0
    ensures r.frontLeft.steerAngle == w.frontLeft.steerAngle && r.frontRight.steerAngle == w.frontRight.steerAngle
    ensures r.frontLeft.(brakeTorque := 0.0) == w.frontLeft.(brakeTorque := 0.0)
    ensures r.frontRight.(brakeTorque := 0.0) == w.frontRight.(brakeTorque := 0.0)
    ensures r.rearLeft.(brakeTorque := 0.0) == w.rearLeft.(brakeTorque := 0.0)
    ensures r.rearRight.(brakeTorque := 0.0) == w.rearRight.(brakeTorque := 0.0)
  {
    var torque := if brake then d.brakeForce else 0.0;
    Wheels(w.frontLeft.(brakeTorque := torque), w.frontRight.(brakeTorque := torque),
           w.rearLeft.(brakeTorque := torque), w.rearRight.(brakeTorque := torque))
  }

  // ------------------------------------------------------------------ tick

  /** `ApplyDrivingLogic` after the target and avoidance of this tick are
      known. */
  function ApplyDrivingLogic(p: Params, d: Drivetrain, s: State, w: Wheels, pl: Player, f: Frame): (r: Tick)
    requires p.maxSpeed != 0.0
    ensures r.state.targetPosition == s.targetPosition && r.state.avoidance == s.avoidance
    ensures var target := TargetThrottle(p, f.view.distanceTo(s.targetPosition), SpeedFactor(p, f.view.speed));
      Min(s.throttle, target) <= r.state.throttle <= Max(s.throttle, target)
    ensures var adjusted := SpeedAdjustedSteering(p, RawSteering(p, f.view.localPoint(Add(s.targetPosition, s.avoidance))), f.view.speed);
      Min(s.steering, adjusted) <= r.state.steering <= Max(s.steering, adjusted)
    ensures f.fixedDeltaTime <= 0.0 ==> r.state.throttle == s.throttle && r.state.steering == s.steering
    ensures var brake := ShouldBrake(p, f.view.distanceTo(pl.position), f.view.speed);
      && r.wheels.frontLeft.motorTorque == r.wheels.frontRight.motorTorque
         == r.wheels.rearLeft.motorTorque == r.wheels.rearRight.motorTorque
         == MotorTorque(d, r.state.throttle)
      && r.wheels.frontLeft.brakeTorque == r.wheels.frontRight.brakeTorque
         == r.wheels.rearLeft.brakeTorque == r.wheels.rearRight.brakeTorque
         == (if brake then d.brakeForce else 0.0)
      && r.wheels.rearLeft.steerAngle == w.rearLeft.steerAngle
      && r.wheels.rearRight.steerAngle == w.rearRight.steerAngle
    ensures var angle := SteerAngle(d, r.state.steering);
      && Min(w.frontLeft.steerAngle, angle) <= r.wheels.frontLeft.steerAngle <= Max(w.frontLeft.steerAngle, angle)
      && Min(w.frontRight.steerAngle, angle) <= r.wheels.frontRight.steerAngle <= Max(w.frontRight.steerAngle, angle)
      && (w.frontLeft.steerAngle == w.frontRight.steerAngle ==> r.wheels.frontLeft.steerAngle == r.wheels.frontRight.steerAngle)
  {
    var localTarget := f.view.localPoint(Add(s.targetPosition, s.avoidance));
    var distanceToTarget := f.view.distanceTo(s.targetPosition);
    var speed := f.view.speed;
    var targetThrottle := TargetThrottle(p, distanceToTarget, SpeedFactor(p, speed));
    var throttle := SmoothThrottle(s.throttle, targetThrottle, f.fixedDeltaTime);
    var raw := RawSteering(p, localTarget);
    var adjusted := SpeedAdjustedSteering(p, raw, speed);
    var steering := SmoothSteering(s.steering, adjusted, f.fixedDeltaTime);
    var w1 := ApplyMotorTorque(d, w, throttle);
    var w2 := ApplySteering(d, w1, steering);
    var brake := ShouldBrake(p, f.view.distanceTo(pl.position), speed);
    ActuationSteersFrontWheels(d, w, throttle, steering, brake);
    Tick(s.(throttle := throttle, steering := steering), ApplyBrakes(d, w2, brake))
  }

  /** `FixedUpdate`: skipped entirely without a player; otherwise target,
      avoidance, then the driving logic, which gives every wheel the same
      motor torque `accelerationMultiplier * 50 * throttle` and the same
      brake torque: the brake force exactly when the player is within 0.6
      of the follow distance and the speed is above 10. */
  function FixedUpdate(p: Params, d: Drivetrain, s: State, w: Wheels, f: Frame): (r: Tick)
    requires p.maxSpeed != 0.0
    ensures f.player.None? ==> r == Tick(s, w)
    ensures f.player.Some? ==>
              && r.state.targetPosition == TargetPosition(p, f.player.value, f.lateralPhase)
              && r.state.avoidance == CalculateAvoidance(f.sensing)
    ensures f.player.Some? ==>
      var brake := ShouldBrake(p, f.view.distanceTo(f.player.value.position), f.view.speed);
      && r.wheels.frontLeft.motorTorque == r.wheels.frontRight.motorTorque
         == r.wheels.rearLeft.motorTorque == r.wheels.rearRight.motorTorque
         == MotorTorque(d, r.state.throttle)
      && r.wheels.frontLeft.brakeTorque == r.wheels.frontRight.brakeTorque
         == r.wheels.rearLeft.brakeTorque == r.wheels.rearRight.brakeTorque
         == (if brake then d.brakeForce else 0.0)
      && r.wheels.rearLeft.steerAngle == w.rearLeft.steerAngle
      && r.wheels.rearRight.steerAngle == w.rearRight.steerAngle
    ensures f.player.Some? ==>
      var angle := SteerAngle(d, r.state.steering);
      && Min(w.frontLeft.steerAngle, angle) <= r.wheels.frontLeft.steerAngle <= Max(w.frontLeft.steerAngle, angle)
      && Min(w.frontRight.steerAngle, angle) <= r.wheels.frontRight.steerAngle <= Max(w.frontRight.steerAngle, angle)
      && (w.frontLeft.steerAngle == w.frontRight.steerAngle ==> r.wheels.frontLeft.steerAngle == r.wheels.frontRight.steerAngle)
  {
    match f.player
    case None => Tick(s, w)
    case Some(pl) =>
      var aimed := s.(targetPosition := TargetPosition(p, pl, f.lateralPhase),
                      avoidance := CalculateAvoidance(f.sensing));
      ApplyDrivingLogic(p, d, aimed, w, pl, f)
  }

  // ------------------------------------------------------------ properties

  /** The throttle chases the target of the band chosen by the distance to
      the newly computed follow point, and never overshoots it. */
  lemma ThrottleFollowsBand(p: Params, d: Drivetrain, s: State, w: Wheels, f: Frame)
    requires p.maxSpeed != 0.0 && f.player.Some?
    ensures var r := FixedUpdate(p, d, s, w, f);
      var target := TargetThrottle(p, f.view.distanceTo(r.state.targetPosition), SpeedFactor(p, f.view.speed));
      Min(s.throttle, target) <= r.state.throttle <= Max(s.throttle, target)
  {
    var pl := f.player.value;
    var aimed := s.(targetPosition := TargetPosition(p, pl, f.lateralPhase),
                    avoidance := CalculateAvoidance(f.sensing));
    assert FixedUpdate(p, d, s, w, f) == ApplyDrivingLogic(p, d, aimed, w, pl, f);
  }

  /** Motor torque and brakes leave the steer angles alone, so the front
      angles of the actuated wheels are the eased ones. */
  lemma ActuationSteersFrontWheels(d: Drivetrain, w: Wheels, throttle: real, steering: real, brake: bool)
    ensures var r := ApplyBrakes(d, ApplySteering(d, ApplyMotorTorque(d, w, throttle), steering), brake);
      var angle := SteerAngle(d, steering);
      && Min(w.frontLeft.steerAngle, angle) <= r.frontLeft.steerAngle <= Max(w.frontLeft.steerAngle, angle)
      && Min(w.frontRight.steerAngle, angle) <= r.frontRight.steerAngle <= Max(w.frontRight.steerAngle, angle)
      && (w.frontLeft.steerAngle == w.frontRight.steerAngle ==> r.frontLeft.steerAngle == r.frontRight.steerAngle)
  {
    var w1 := ApplyMotorTorque(d, w, throttle);
    var w2 := ApplySteering(d, w1, steering);
    assert w1.frontLeft.steerAngle == w.frontLeft.steerAngle && w1.frontRight.steerAngle == w.frontRight.steerAngle;
  }

  /** Throttle stays within [-brakeSensitivity, 1] at every speed: the
      band target does, and the filter only moves between it and the
      previous throttle. */
  lemma DrivingLogicThrottleInRange(p: Params, d: Drivetrain, s: State, w: Wheels, pl: Player, f: Frame)
    requires p.maxSpeed != 0.0 && ThrottleParams(p) && ThrottleInRange(p, s.throttle)
    ensures ThrottleInRange(p, ApplyDrivingLogic(p, d, s, w, pl, f).state.throttle)
  {
    var r := ApplyDrivingLogic(p, d, s, w, pl, f);
    var target := TargetThrottle(p, f.view.distanceTo(s.targetPosition), SpeedFactor(p, f.view.speed));
    assert ThrottleInRange(p, target);
    assert Min(s.throttle, target) <= r.state.throttle <= Max(s.throttle, target);
  }

  /** Steering stays within [-1, 1] as long as the cornering scale of the
      tick's speed does. */
  lemma DrivingLogicSteeringInRange(p: Params, d: Drivetrain, s: State, w: Wheels, pl: Player, f: Frame)
    requires p.maxSpeed != 0.0 && -1.0 <= CorneringScale(p, f.view.speed) <= 1.0
    requires -1.0 <= s.steering <= 1.0
    ensures -1.0 <= ApplyDrivingLogic(p, d, s, w, pl, f).state.steering <= 1.0
  {
    var r := ApplyDrivingLogic(p, d, s, w, pl, f);
    var raw := RawSteering(p, f.view.localPoint(Add(s.targetPosition, s.avoidance)));
    var adjusted := SpeedAdjustedSteering(p, raw, f.view.speed);
    assert -1.0 <= adjusted <= 1.0;
    assert Min(s.steering, adjusted) <= r.state.steering <= Max(s.steering, adjusted);
  }

  /** One tick keeps throttle within [-brakeSensitivity, 1], whatever the
      speed. */
  lemma FixedUpdateThrottleInRange(p: Params, d: Drivetrain, s: State, w: Wheels, f: Frame)
    requires p.maxSpeed != 0.0 && ThrottleParams(p) && ThrottleInRange(p, s.throttle)
    ensures ThrottleInRange(p, FixedUpdate(p, d, s, w, f).state.throttle)
  {
    if f.player.Some? {
      var pl := f.player.value;
      var aimed := s.(targetPosition := TargetPosition(p, pl, f.lateralPhase),
                      avoidance := CalculateAvoidance(f.sensing));
      assert FixedUpdate(p, d, s, w, f) == ApplyDrivingLogic(p, d, aimed, w, pl, f);
      DrivingLogicThrottleInRange(p, d, aimed, w, pl, f);
    }
  }

  /** One tick keeps steering within [-1, 1] while the cornering scale of
      its speed is within [-1, 1]. */
  lemma FixedUpdateSteeringInRange(p: Params, d: Drivetrain, s: State, w: Wheels, f: Frame)
    requires p.maxSpeed != 0.0 && -1.0 <= CorneringScale(p, f.view.speed) <= 1.0
    requires -1.0 <= s.steering <= 1.0
    ensures -1.0 <= FixedUpdate(p, d, s, w, f).state.steering <= 1.0
  {
    if f.player.Some? {
      var pl := f.player.value;
      var aimed := s.(targetPosition := TargetPosition(p, pl, f.lateralPhase),
                      avoidance := CalculateAvoidance(f.sensing));
      assert FixedUpdate(p, d, s, w, f) == ApplyDrivingLogic(p, d, aimed, w, pl, f);
      DrivingLogicSteeringInRange(p, d, aimed, w, pl, f);
    }
  }

  /** The controller driven over a sequence of ticks. */
  function Run(p: Params, d: Drivetrain, t: Tick, frames: seq<Frame>): Tick
    requires p.maxSpeed != 0.0
    decreases |frames|
  {
    if |frames| == 0 then t
    else Run(p, d, FixedUpdate(p, d, t.state, t.wheels, frames[0]), frames[1..])
  }

  /** Over any run, at any speeds, throttle stays within
      [-brakeSensitivity, 1]. */
  lemma {:induction false} RunThrottleInRange(p: Params, d: Drivetrain, t: Tick, frames: seq<Frame>)
    requires p.maxSpeed != 0.0 && ThrottleParams(p) && ThrottleInRange(p, t.state.throttle)
    ensures ThrottleInRange(p, Run(p, d, t, frames).state.throttle)
    decreases |frames|
  {
    if |frames| > 0 {
      FixedUpdateThrottleInRange(p, d, t.state, t.wheels, frames[0]);
      RunThrottleInRange(p, d, FixedUpdate(p, d, t.state, t.wheels, frames[0]), frames[1..]);
    }
  }

  /** Over any run whose every tick keeps the cornering scale within
      [-1, 1], steering stays within [-1, 1]. */
  lemma {:induction false} RunSteeringInRange(p: Params, d: Drivetrain, t: Tick, frames: seq<Frame>)
    requires p.maxSpeed != 0.0 && -1.0 <= t.state.steering <= 1.0
    requires forall i :: 0 <= i < |frames| ==> -1.0 <= CorneringScale(p, frames[i].view.speed) <= 1.0
    ensures -1.0 <= Run(p, d, t, frames).state.steering <= 1.0
    decreases |frames|
  {
    if |frames| > 0 {
      FixedUpdateSteeringInRange(p, d, t.state, t.wheels, frames[0]);
      RunSteeringInRange(p, d, FixedUpdate(p, d, t.state, t.wheels, frames[0]), frames[1..]);
    }
  }

  /** Past `maxSpeed / corneringSpeedFactor` the attenuation turns into a
      reversal: the adjusted command steers the other way. */
  lemma SteeringReversesAtHighSpeed(p: Params, raw: real, speed: real)
    requires p.maxSpeed > 0.0 && raw != 0.0 && speed * p.corneringSpeedFactor > p.maxSpeed
    ensures raw * SpeedAdjustedSteering(p, raw, speed) < 0.0
  {
    CorneringScaleRange(p, speed);
    var k := CorneringScale(p, speed);
    assert SpeedAdjustedSteering(p, raw, speed) == raw * k;
    OppositeSign(raw, k);
  }

  /** Scaling by a negative factor flips the sign. */
  lemma OppositeSign(x: real, k: real)
    requires x != 0.0 && k < 0.0
    ensures x * (x * k) < 0.0
  {
    if x > 0.0 {
      MulPos(x, -k);
      MulPos(x, -(x * k));
    } else {
      MulPos(-x, -k);
      MulPos(-x, x * k);
    }
  }

  /** With the shipped settings, full steering at speed 400 comes out
      at -2.5, outside [-1, 1]. */
  lemma SteeringLeavesRangeExample()
    ensures SpeedAdjustedSteering(Defaults, 1.0, 400.0) == -2.5
  {
  }

  /** With the shipped settings, a controller at rest whose target is 20
      units away (beyond 0.8 of the follow distance) starts pushing the
      throttle forward on its first positive step. */
  lemma FarTargetThrottlesUp(dt: real)
    requires dt > 0.0
    ensures SmoothThrottle(0.0, TargetThrottle(Defaults, 20.0, SpeedFactor(Defaults, 0.0)), dt) > 0.0
  {
    assert SpeedFactor(Defaults, 0.0) == 0.0;
    assert TargetThrottle(Defaults, 20.0, 0.0) == 1.0;
    if dt * 3.0 < 1.0 {
      MulPos(1.0, dt * 3.0);
    }
  }

  /** The shipped settings keep throttle in range, the controller starts
      at zero controls, and steering stays in range up to speed
      2 * 80 / 0.7. */
  lemma DefaultsSane(speed: real)
    ensures ThrottleParams(Defaults) && ThrottleInRange(Defaults, Initial.throttle) && Initial.steering == 0.0
    ensures 0.0 <= speed && speed * 0.7 <= 160.0 ==> -1.0 <= CorneringScale(Defaults, speed) <= 1.0
  {
    CorneringScaleRange(Defaults, speed);
  }

  /** A tick with zero elapsed time keeps throttle and steering. */
  lemma ZeroTimeKeepsControls(p: Params, d: Drivetrain, s: State, w: Wheels, f: Frame)
    requires p.maxSpeed != 0.0 && f.fixedDeltaTime == 0.0
    ensures FixedUpdate(p, d, s, w, f).state.throttle == s.throttle
    ensures FixedUpdate(p, d, s, w, f).state.steering == s.steering
  {
  }
}

=== FILE: car_light_system.dfy ===
/** A car light (`CarLightSystem`): a headlight follows its on/off switch,
    a brakelight with the brake effect follows the brake keys; the bulb
    mesh glows exactly when the light has positive intensity.

    Key state comes in as booleans each frame. Colour, cone gizmos and the
    material calls themselves are rendering; the model keeps the light's
    intensity, shadow and render settings and whether emission is on. */
module CarLightSystem {

  datatype LightKind = Headlight | Brakelight

  datatype Shadows = NoShadows | SoftShadows

  datatype RenderMode = Auto | ForcePixel

  /** The inspector settings, and whether the light has a bulb mesh. */
  datatype Config = Config(
    kind: LightKind,
    baseIntensity: real,
    maxIntensity: real,
    range: real,
    spotAngle: real,
    alwaysOn: bool,
    enableBrakeEffect: bool,
    hasMesh: bool)

  /** The values the script ships with, for a light of the given kind. */
  function Defaults(kind: LightKind, hasMesh: bool): Config
  {
    Config(kind, 3.0, 5.0, 30.0, 60.0, true, true, hasMesh)
  }

  /** The light component as the script leaves it, plus the switch. */
  datatype Light = Light(
    isOn: bool,
    intensity: real,
    range: real,
    spotAngle: real,
    shadows: Shadows,
    renderMode: RenderMode,
    emission: bool)

  /** The keys read in one frame. */
  datatype Controls = Controls(toggleKeyDown: bool, spaceHeld: bool, downArrowHeld: bool)

  predicate Braking(k: Controls)
  {
    k.spaceHeld || k.downArrowHeld
  }

  /** Whether the light follows the brake keys instead of its switch. */
  predicate FollowsBrakes(c: Config)
  {
    c.kind == Brakelight && c.enableBrakeEffect
  }

  /** The intensity `UpdateLightStatus` chooses. */
  function StatusIntensity(c: Config, isOn: bool, braking: bool): (i: real)
    ensures FollowsBrakes(c) ==> i == (if braking then c.maxIntensity else c.baseIntensity)
    ensures !FollowsBrakes(c) && isOn ==> i == c.baseIntensity
    ensures !FollowsBrakes(c) && !isOn ==> i == 0.0
  {
    if FollowsBrakes(c) then (if braking then c.maxIntensity else c.baseIntensity)
    else if isOn then c.baseIntensity else 0.0
  }

  /** `UpdateLightVisualization`: with a bulb mesh, emission is switched on
      exactly when the intensity is positive; without one nothing changes. */
  function UpdateLightVisualization(c: Config, l: Light): (r: Light)
    ensures c.hasMesh ==> (r.emission <==> l.intensity > 0.0)
    ensures !c.hasMesh ==> r == l
    ensures r.(emission := l.emission) == l
  {
    if c.hasMesh then l.(emission := l.intensity > 0.0) else l
  }

  /** `Awake` / `InitializeLight`: switched on, so at base intensity; soft
      shadows and per-pixel rendering for headlights, none and automatic
      for brakelights. */
  function InitializeLight(c: Config): (l: Light)
    ensures l.isOn && l.intensity == c.baseIntensity
    ensures l.range == c.range && l.spotAngle == c.spotAngle
    ensures c.kind == Headlight ==> l.shadows == SoftShadows && l.renderMode == ForcePixel
    ensures c.kind == Brakelight ==> l.shadows == NoShadows && l.renderMode == Auto
    ensures Displayed(c, l)
  {
    var isOn := true;
    var shadows := match c.kind case Headlight => SoftShadows case Brakelight => NoShadows;
    var mode := match c.kind case Headlight => ForcePixel case Brakelight => Auto;
    UpdateLightVisualization(c,
      Light(isOn, if isOn then c.baseIntensity else 0.0, c.range, c.spotAngle, shadows, mode, false))
  }

  /** `UpdateLightStatus`. */
  function UpdateLightStatus(c: Config, l: Light, braking: bool): (r: Light)
    ensures r.intensity == StatusIntensity(c, l.isOn, braking)
    ensures c.hasMesh ==> (r.emission <==> r.intensity > 0.0)
    ensures r.(intensity := l.intensity, emission := l.emission) == l
  {
    UpdateLightVisualization(c, l.(intensity := StatusIntensity(c, l.isOn, braking)))
  }

  /** `ToggleLights`: flips the switch and refreshes, unless the light is
      always on, in which case nothing happens. */
  function ToggleLights(c: Config, l: Light, braking: bool): (r: Light)
    ensures c.alwaysOn ==> r == l
    ensures !c.alwaysOn ==> r.isOn == !l.isOn && r.intensity == StatusIntensity(c, r.isOn, braking)
  {
    if !c.alwaysOn then UpdateLightStatus(c, l.(isOn := !l.isOn), braking) else l
  }

  /** `Update`: handle the toggle key, then refresh the status. */
  function Update(c: Config, l: Light, k: Controls): (r: Light)
    ensures r.intensity == StatusIntensity(c, r.isOn, Braking(k))
    ensures r.isOn == (if k.toggleKeyDown && !c.alwaysOn then !l.isOn else l.isOn)
  {
    var toggled := if k.toggleKeyDown then ToggleLights(c, l, Braking(k)) else l;
    UpdateLightStatus(c, toggled, Braking(k))
  }

  /** The emission flag shows whether the light is lit: on exactly when
      there is a mesh and the intensity is positive. */
  predicate Displayed(c: Config, l: Light)
  {
    l.emission <==> c.hasMesh && l.intensity > 0.0
  }

  function Run(c: Config, l: Light, frames: seq<Controls>): Light
    decreases |frames|
  {
    if |frames| == 0 then l else Run(c, Update(c, l, frames[0]), frames[1..])
  }

  /** Over any run of frames the emission keeps matching the intensity, and
      a light that is always on stays switched on. */
  lemma {:induction false} RunDisplayed(c: Config, l: Light, frames: seq<Controls>)
    requires Displayed(c, l)
    ensures Displayed(c, Run(c, l, frames))
    ensures c.alwaysOn && l.isOn ==> Run(c, l, frames).isOn
    decreases |frames|
  {
    if |frames| > 0 {
      RunDisplayed(c, Update(c, l, frames[0]), frames[1..]);
    }
  }

  /** An always-on headlight shines at base intensity after every frame. */
  lemma AlwaysOnHeadlight(c: Config, frames: seq<Controls>)
    requires c.alwaysOn && c.kind == Headlight && |frames| > 0
    ensures Run(c, InitializeLight(c), frames).intensity == c.baseIntensity
  {
    RunDisplayed(c, InitializeLight(c), frames);
    RunLastFrame(c, InitializeLight(c), frames);
  }

  /** The shipped headlight is always on, so after any frames it shows
      the shipped base intensity of 3, whatever the keys did. */
  lemma DefaultHeadlightShowsBase(hasMesh: bool, frames: seq<Controls>)
    requires |frames| > 0
    ensures Run(Defaults(Headlight, hasMesh), InitializeLight(Defaults(Headlight, hasMesh)), frames).intensity == 3.0
  {
    AlwaysOnHeadlight(Defaults(Headlight, hasMesh), frames);
  }

  /** After a non-empty run the intensity is the one the last frame chose. */
  lemma {:induction false} RunLastFrame(c: Config, l: Light, frames: seq<Controls>)
    requires |frames| > 0
    ensures var r := Run(c, l, frames);
      r.intensity == StatusIntensity(c, r.isOn, Braking(frames[|frames| - 1]))
    decreases |frames|
  {
    if |frames| > 1 {
      RunLastFrame(c, Update(c, l, frames[0]), frames[1..]);
    }
  }

  /** A brakelight with the effect enabled ignores its switch. */
  lemma BrakelightIgnoresSwitch(c: Config, l: Light, braking: bool)
    requires FollowsBrakes(c)
    ensures UpdateLightStatus(c, l, braking).intensity == UpdateLightStatus(c, l.(isOn := !l.isOn), braking).intensity
  {
  }

  /** Toggling twice restores the switch. */
  lemma ToggleTwice(c: Config, l: Light, braking: bool)
    ensures ToggleLights(c, ToggleLights(c, l, braking), braking).isOn == l.isOn
  {
  }
}

=== FILE: car_spawner.dfy ===
/** Start-up of the race scene (`CarSpawner.Start`): read the stored
    selection (default "Car1"), keep the cars whose name is the selection or
    the selection followed by "(Clone)", destroy the rest, and move the last
    kept car to the spawn point. With no match nothing is moved.

    Cars are the "Car"-tagged objects in the order the engine lists them;
    destroying a car is removing its index from the scene. Enabling the
    chosen car's cameras is rendering and is not modelled. */
module CarSpawner {
  import opened Optional
  import opened Vectors
  import SelectableCar

  datatype Rotation = Rotation(x: real, y: real, z: real, w: real)

  datatype Pose = Pose(position: Vec3, rotation: Rotation)

  datatype Car = Car(name: string, pose: Pose)

  const DefaultSelection := "Car1"

  const CloneSuffix := "(Clone)"

  /** The stored selection, or "Car1" when none was stored. */
  function SelectedCarName(stored: Option<string>): (n: string)
    ensures stored.None? ==> n == DefaultSelection
    ensures stored.Some? ==> n == stored.value
  {
    stored.GetOr(DefaultSelection)
  }

  /** A car is the selected one under its own name or as a clone of it. */
  predicate Matches(name: string, selected: string)
  {
    name == selected || name == selected + CloneSuffix
  }

  predicate Increasing(s: seq<nat>)
  {
    forall i, j :: 0 <= i < j < |s| ==> s[i] < s[j]
  }

  /** The outcome of `Start`: the indices kept and destroyed (in listing
      order), the index of the selected car, and the surviving cars. */
  datatype Spawn = Spawn(kept: seq<nat>, destroyed: seq<nat>, selected: Option<nat>, scene: seq<Car>)

  method Start(stored: Option<string>, cars: seq<Car>, spawnPoint: Pose) returns (r: Spawn)
    ensures var sel := SelectedCarName(stored);
      forall i :: i in r.kept <==> 0 <= i < |cars| && Matches(cars[i].name, sel)
    ensures var sel := SelectedCarName(stored);
      forall i :: i in r.destroyed <==> 0 <= i < |cars| && !Matches(cars[i].name, sel)
    ensures Increasing(r.kept) && Increasing(r.destroyed)
    ensures var sel := SelectedCarName(stored);
      r.selected.None? <==> forall i :: 0 <= i < |cars| ==> !Matches(cars[i].name, sel)
    ensures var sel := SelectedCarName(stored);
      r.selected.Some? ==>
        && r.selected.value < |cars| && Matches(cars[r.selected.value].name, sel)
        && forall j :: r.selected.value < j < |cars| ==> !Matches(cars[j].name, sel)
    ensures |r.scene| == |r.kept|
    ensures forall k :: 0 <= k < |r.kept| ==>
              && r.kept[k] < |cars|
              && r.scene[k] == if r.selected == Some(r.kept[k]) then cars[r.kept[k]].(pose := spawnPoint)
                               else cars[r.kept[k]]
  {
    var sel := SelectedCarName(stored);
    var kept: seq<nat> := [];
    var destroyed: seq<nat> := [];
    var selected: Option<nat> := None;
    var i := 0;
    while i < |cars|
      invariant 0 <= i <= |cars|
      invariant forall k :: k in kept <==> 0 <= k < i && Matches(cars[k].name, sel)
      invariant forall k :: k in destroyed <==> 0 <= k < i && !Matches(cars[k].name, sel)
      invariant Increasing(kept) && Increasing(destroyed)
      invariant forall k :: 0 <= k < |kept| ==> kept[k] < i
      invariant forall k :: 0 <= k < |destroyed| ==> destroyed[k] < i
      invariant selected.None? <==> forall k :: 0 <= k < i ==> !Matches(cars[k].name, sel)
      invariant selected.Some? ==>
        && selected.value < i && Matches(cars[selected.value].name, sel)
        && forall j :: selected.value < j < i ==> !Matches(cars[j].name, sel)
    {
      if Matches(cars[i].name, sel) {
        selected := Some(i);
        kept := kept + [i];
      } else {
        destroyed := destroyed + [i];
      }
      i := i + 1;
    }
    var scene: seq<Car> := [];
    var k := 0;
    while k < |kept|
      invariant 0 <= k <= |kept| && |scene| == k
      invariant forall m :: 0 <= m < k ==>
        scene[m] == if selected == Some(kept[m]) then cars[kept[m]].(pose := spawnPoint) else cars[kept[m]]
    {
      var car := cars[kept[k]];
      scene := scene + [if selected == Some(kept[k]) then car.(pose := spawnPoint) else car];
      k := k + 1;
    }
    r := Spawn(kept, destroyed, selected, scene);
  }

  /** The name a selection click stores is the one the race scene looks
      for. */
  lemma ClickSelectsForSpawn(c: SelectableCar.Config, last: real, w: SelectableCar.World, now: real)
    requires now - last >= c.doubleClickTime
    ensures SelectedCarName(SelectableCar.OnMouseDown(c, last, w, now).world.selectedCar) == c.carName
  {
  }
}

=== FILE: decimal_text.dfy ===
/** Decimal rendering of integers, as string interpolation writes them
    (culture-invariant: an optional '-' then digits without leading zeros),
    and the parser that reads them back. */
module DecimalText {
  import opened Optional

  predicate IsDigit(c: char)
  {
    '0' <= c <= '9'
  }

  predicate AllDigits(s: string)
  {
    forall i :: 0 <= i < |s| ==> IsDigit(s[i])
  }

  function DigitChar(d: nat): (c: char)
    requires d < 10
    ensures IsDigit(c)
  {
    (('0' as int) + d) as char
  }

  function DigitValue(c: char): (d: nat)
    requires IsDigit(c)
    ensures d < 10
  {
    (c as int) - ('0' as int)
  }

  /** The decimal digits of `n`, most significant first. */
  function NatToString(n: nat): (s: string)
    ensures |s| >= 1 && AllDigits(s)
    ensures |s| > 1 ==> s[0] != '0'
    decreases n
  {
    if n < 10 then [DigitChar(n)] else NatToString(n / 10) + [DigitChar(n % 10)]
  }

  function IntToString(i: int): (s: string)
    ensures |s| >= 1
    ensures i < 0 <==> s[0] == '-'
    ensures forall k :: 0 <= k < |s| ==> s[k] != '/'
  {
    if i < 0 then "-" + NatToString(-i) else NatToString(i)
  }

  /** The value of a string of digits. */
  function DigitsValue(s: string): nat
    requires AllDigits(s)
    decreases |s|
  {
    if |s| == 0 then 0 else DigitsValue(s[..|s| - 1]) * 10 + DigitValue(s[|s| - 1])
  }

  function ParseNat(s: string): (r: Option<nat>)
    ensures r.Some? <==> |s| > 0 && AllDigits(s)
  {
    if |s| > 0 && AllDigits(s) then Some(DigitsValue(s)) else None
  }

  function ParseInt(s: string): (r: Option<int>)
    ensures |s| == 0 ==> r.None?
  {
    if |s| > 0 && s[0] == '-' then
      match ParseNat(s[1..])
      case Some(n) => var v: int := -(n as int); Some(v)
      case None => None
    else
      match ParseNat(s)
      case Some(n) => Some(n)
      case None => None
  }

  /** Reading back the digits of `n` gives `n`. */
  lemma {:induction false} NatRoundTrip(n: nat)
    ensures ParseNat(NatToString(n)) == Some(n)
    decreases n
  {
    var s := NatToString(n);
    if n >= 10 {
      NatRoundTrip(n / 10);
      assert s[..|s| - 1] == NatToString(n / 10);
      assert DigitValue(s[|s| - 1]) == n % 10;
      assert DigitsValue(s) == (n / 10) * 10 + n % 10;
    } else {
      assert s[..|s| - 1] == [];
      assert DigitsValue(s) == n;
    }
  }

  /** Reading back the rendering of `i` gives `i`. */
  lemma IntRoundTrip(i: int)
    ensures ParseInt(IntToString(i)) == Some(i)
  {
    if i < 0 {
      NatRoundTrip(-i);
      assert IntToString(i)[1..] == NatToString(-i);
    } else {
      NatRoundTrip(i);
    }
  }
}

=== FILE: drift_scoring.dfy ===
/** The drift meter of `DriftScoringSystem`: once per frame it decides
    whether the car is drifting, and while it is, advances the drift clock,
    grows a capped multiplier and recomputes the provisional points; when
    the drift ends the points are banked into the running total.

    The engine supplies the already-derived readings: the drift angle in
    degrees (`|atan2(local velocity x, z)|`), the speed (velocity magnitude),
    the car controller's own slip flag and the frame time. */
module DriftScoring {
  import opened UnityMath

  /** The inspector settings. */
  datatype DriftParams = DriftParams(
    minDriftAngle: real,
    maxDriftAngle: real,
    minSpeed: real,
    pointsPerSecond: real,
    multiplierGrowth: real,
    maxMultiplier: real)

  /** The values the script ships with. */
  const Defaults := DriftParams(15.0, 60.0, 10.0, 50.0, 0.2, 5.0)

  /** The private fields of the script. */
  datatype DriftState = DriftState(
    currentDriftTime: real,
    currentDriftPoints: real,
    totalDriftPoints: real,
    currentMultiplier: real,
    isDrifting: bool)

  /** Field initialisers: everything zero except the multiplier, which is 1. */
  const Initial := DriftState(0.0, 0.0, 0.0, 1.0, false)

  /** One frame's readings. `controllerPresent` is false when the car has no
      controller component, in which case the frame is skipped. */
  datatype Reading = Reading(
    controllerPresent: bool,
    driftAngle: real,
    speed: real,
    controllerDrifting: bool,
    dt: real)

  /** The settings under which the meter's bounds hold. */
  predicate SaneParams(p: DriftParams)
  {
    p.pointsPerSecond >= 0.0 && p.multiplierGrowth >= 0.0 && p.maxMultiplier >= 1.0
  }

  /** The three-way test of `Update`: angle, speed and the controller's
      own slip detection must all agree. */
  predicate DriftingNow(p: DriftParams, r: Reading)
  {
    r.driftAngle > p.minDriftAngle && r.speed > p.minSpeed && r.controllerDrifting
  }

  /** The clamped position of the angle between the two thresholds. It is
      only evaluated while drifting, so the angle is above the minimum; when
      both thresholds coincide the float quotient is +infinity, which the
      clamp turns into 1. */
  function AngleFactor(p: DriftParams, driftAngle: real): (f: real)
    requires driftAngle > p.minDriftAngle
    ensures 0.0 <= f <= 1.0
    ensures p.minDriftAngle < p.maxDriftAngle && driftAngle >= p.maxDriftAngle ==> f == 1.0
    ensures p.minDriftAngle < p.maxDriftAngle && driftAngle <= p.maxDriftAngle ==>
              p.minDriftAngle + f * (p.maxDriftAngle - p.minDriftAngle) == driftAngle
  {
    if p.maxDriftAngle == p.minDriftAngle then 1.0
    else
      FractionBounds(p.minDriftAngle, p.maxDriftAngle, driftAngle);
      Clamp01((driftAngle - p.minDriftAngle) / (p.maxDriftAngle - p.minDriftAngle))
  }

  /** The points a drift of the given length, multiplier and angle factor is
      worth. They are recomputed from the elapsed time, not accumulated. */
  function DriftPoints(p: DriftParams, time: real, multiplier: real, angleFactor: real): real
  {
    time * p.pointsPerSecond * multiplier * (1.0 + angleFactor)
  }

  /** `CalculateDriftPoints`: grow the multiplier (capped) and recompute the
      provisional points from the drift time already advanced. */
  function CalculateDriftPoints(p: DriftParams, s: DriftState, driftAngle: real, dt: real): (r: DriftState)
    requires driftAngle > p.minDriftAngle
    ensures r.currentMultiplier <= p.maxMultiplier
    ensures SaneParams(p) && dt >= 0.0 && 1.0 <= s.currentMultiplier <= p.maxMultiplier ==>
              s.currentMultiplier <= r.currentMultiplier && 1.0 <= r.currentMultiplier
    ensures r.currentDriftPoints ==
              DriftPoints(p, s.currentDriftTime, r.currentMultiplier, AngleFactor(p, driftAngle))
    ensures r.currentDriftTime == s.currentDriftTime
    ensures r.totalDriftPoints == s.totalDriftPoints && r.isDrifting == s.isDrifting
  {
    var m := Min(s.currentMultiplier + p.multiplierGrowth * dt, p.maxMultiplier);
    s.(currentMultiplier := m,
       currentDriftPoints := DriftPoints(p, s.currentDriftTime, m, AngleFactor(p, driftAngle)))
  }

  /** `StartDrift`: only the flag changes (the indicator is rendering). */
  function StartDrift(s: DriftState): (r: DriftState)
    ensures r.isDrifting
    ensures r.(isDrifting := s.isDrifting) == s
    ensures DisplayScore(r) == DisplayScore(s)
  {
    s.(isDrifting := true)
  }

  /** `EndDrift`: bank the provisional points and reset the drift. */
  function EndDrift(s: DriftState): (r: DriftState)
    ensures r.totalDriftPoints == s.totalDriftPoints + s.currentDriftPoints
    ensures r.currentDriftPoints == 0.0 && r.currentDriftTime == 0.0
    ensures r.currentMultiplier == 1.0 && !r.isDrifting
  {
    DriftState(0.0, 0.0, s.totalDriftPoints + s.currentDriftPoints, 1.0, false)
  }

  /** `Update`: one frame of the meter. */
  function Update(p: DriftParams, s: DriftState, rd: Reading): (r: DriftState)
    ensures !rd.controllerPresent ==> r == s
    ensures rd.controllerPresent ==> (r.isDrifting <==> DriftingNow(p, rd))
    ensures rd.controllerPresent && !DriftingNow(p, rd) && !s.isDrifting ==> r == s
    ensures rd.controllerPresent && DriftingNow(p, rd) ==>
              && r.currentDriftTime == s.currentDriftTime + rd.dt
              && r.currentMultiplier == Min(s.currentMultiplier + p.multiplierGrowth * rd.dt, p.maxMultiplier)
              && r.currentDriftPoints ==
                   DriftPoints(p, r.currentDriftTime, r.currentMultiplier, AngleFactor(p, rd.driftAngle))
              && r.totalDriftPoints == s.totalDriftPoints
    ensures rd.controllerPresent && !DriftingNow(p, rd) && s.isDrifting ==>
              && r.totalDriftPoints == s.totalDriftPoints + s.currentDriftPoints
              && r.currentDriftPoints == 0.0 && r.currentDriftTime == 0.0
              && r.currentMultiplier == 1.0
  {
    if !rd.controllerPresent then s
    else if DriftingNow(p, rd) then
      var timed := s.(currentDriftTime := s.currentDriftTime + rd.dt);
      var scored := CalculateDriftPoints(p, timed, rd.driftAngle, rd.dt);
      if !s.isDrifting then StartDrift(scored) else scored
    else if s.isDrifting then EndDrift(s)
    else s
  }

  /** The score shown on screen: banked drifts plus the drift in progress. */
  function DisplayScore(s: DriftState): (score: real)
    ensures s.totalDriftPoints >= 0.0 && s.currentDriftPoints >= 0.0 ==> score >= s.totalDriftPoints >= 0.0
    ensures s.currentDriftPoints == 0.0 ==> score == s.totalDriftPoints
  {
    s.totalDriftPoints + s.currentDriftPoints
  }

  /** What every reachable state satisfies under sane settings: the
      multiplier within [1, max], non-negative clock and total, points
      between the angle-factor extremes, and an idle meter fully reset. */
  predicate Valid(p: DriftParams, s: DriftState)
  {
    && 1.0 <= s.currentMultiplier <= p.maxMultiplier
    && s.currentDriftTime >= 0.0
    && s.totalDriftPoints >= 0.0
    && s.currentDriftTime * p.pointsPerSecond * s.currentMultiplier <= s.currentDriftPoints
    && s.currentDriftPoints <= 2.0 * (s.currentDriftTime * p.pointsPerSecond * s.currentMultiplier)
    && (!s.isDrifting ==> s.currentDriftTime == 0.0 && s.currentDriftPoints == 0.0 && s.currentMultiplier == 1.0)
  }

  lemma InitialValid(p: DriftParams)
    requires SaneParams(p)
    ensures Valid(p, Initial)
  {
  }

  /** A product with a factor in [1,2] lies between the base and twice it. */
  lemma PointsBetween(base: real, angleFactor: real)
    requires base >= 0.0 && 0.0 <= angleFactor <= 1.0
    ensures base <= base * (1.0 + angleFactor) <= 2.0 * base
  {
    MulNonneg(base, angleFactor);
    MulNonneg(base, 1.0 - angleFactor);
    assert base * (1.0 + angleFactor) == base + base * angleFactor;
    assert 2.0 * base == base + base * angleFactor + base * (1.0 - angleFactor);
  }

  /** Points after a drifting frame lie between `t*pps*m` and `2*t*pps*m`. */
  lemma DriftPointsBounds(p: DriftParams, time: real, multiplier: real, angleFactor: real)
    requires SaneParams(p) && time >= 0.0 && multiplier >= 1.0 && 0.0 <= angleFactor <= 1.0
    ensures time * p.pointsPerSecond * multiplier <= DriftPoints(p, time, multiplier, angleFactor)
    ensures DriftPoints(p, time, multiplier, angleFactor) <= 2.0 * (time * p.pointsPerSecond * multiplier)
  {
    var rate := time * p.pointsPerSecond;
    MulNonneg(time, p.pointsPerSecond);
    var base := rate * multiplier;
    MulNonneg(rate, multiplier);
    PointsBetween(base, angleFactor);
    assert base == time * p.pointsPerSecond * multiplier;
    assert DriftPoints(p, time, multiplier, angleFactor) == base * (1.0 + angleFactor);
    assert base * (1.0 + angleFactor) <= 2.0 * base;
  }

  /** Each frame keeps the state valid. */
  lemma UpdatePreservesValid(p: DriftParams, s: DriftState, rd: Reading)
    requires SaneParams(p) && rd.dt >= 0.0 && Valid(p, s)
    ensures Valid(p, Update(p, s, rd))
  {
    if rd.controllerPresent && DriftingNow(p, rd) {
      DriftingFrameValid(p, s, rd);
    } else if rd.controllerPresent && s.isDrifting {
      MulNonneg(s.currentDriftTime, p.pointsPerSecond);
      MulNonneg(s.currentDriftTime * p.pointsPerSecond, s.currentMultiplier);
      assert Update(p, s, rd) == EndDrift(s);
    }
  }

  lemma DriftingFrameValid(p: DriftParams, s: DriftState, rd: Reading)
    requires SaneParams(p) && rd.dt >= 0.0 && Valid(p, s)
    requires rd.controllerPresent && DriftingNow(p, rd)
    ensures Valid(p, Update(p, s, rd))
  {
    var r := Update(p, s, rd);
    assert r.isDrifting;
    assert 1.0 <= r.currentMultiplier <= p.maxMultiplier;
    assert r.currentDriftTime >= 0.0;
    DriftPointsBounds(p, r.currentDriftTime, r.currentMultiplier, AngleFactor(p, rd.driftAngle));
  }

  /** The banked total never decreases, and during a continuing drift the
      multiplier never decreases. */
  lemma UpdateMonotone(p: DriftParams, s: DriftState, rd: Reading)
    requires SaneParams(p) && rd.dt >= 0.0 && Valid(p, s)
    ensures Update(p, s, rd).totalDriftPoints >= s.totalDriftPoints
    ensures s.isDrifting && Update(p, s, rd).isDrifting ==>
              Update(p, s, rd).currentMultiplier >= s.currentMultiplier
  {
    if rd.controllerPresent && !DriftingNow(p, rd) && s.isDrifting {
      MulNonneg(s.currentDriftTime, p.pointsPerSecond);
      MulNonneg(s.currentDriftTime * p.pointsPerSecond, s.currentMultiplier);
    }
    if rd.controllerPresent && DriftingNow(p, rd) {
      MulNonneg(p.multiplierGrowth, rd.dt);
    }
  }

  /** Ending a drift moves the provisional points into the total, so the
      displayed score does not jump. */
  lemma EndDriftKeepsDisplayScore(s: DriftState)
    ensures DisplayScore(EndDrift(s)) == DisplayScore(s)
  {
  }

  /** The first drifting frame already scores: the clock goes from 0 to
      `dt`, the flag is set, and the points use the grown multiplier. */
  lemma FirstDriftingFrame(p: DriftParams, rd: Reading)
    requires rd.controllerPresent && DriftingNow(p, rd)
    ensures var r := Update(p, Initial, rd);
      && r.isDrifting
      && r.currentDriftTime == rd.dt
      && r.currentMultiplier == Min(1.0 + p.multiplierGrowth * rd.dt, p.maxMultiplier)
      && r.currentDriftPoints == rd.dt * p.pointsPerSecond * r.currentMultiplier * (1.0 + AngleFactor(p, rd.driftAngle))
      && r.totalDriftPoints == 0.0
  {
  }

  /** A frame with zero elapsed time, repeated, changes nothing further. */
  lemma ZeroTimeIdempotent(p: DriftParams, s: DriftState, rd: Reading)
    requires rd.dt == 0.0
    ensures Update(p, Update(p, s, rd), rd) == Update(p, s, rd)
  {
  }

  /** The meter driven over a sequence of frames. */
  function Run(p: DriftParams, s: DriftState, frames: seq<Reading>): DriftState
    decreases |frames|
  {
    if |frames| == 0 then s else Run(p, Update(p, s, frames[0]), frames[1..])
  }

  predicate NonNegativeTimes(frames: seq<Reading>)
  {
    forall i :: 0 <= i < |frames| ==> frames[i].dt >= 0.0
  }

  /** Over any run of frames the state stays valid and the total never
      decreases. */
  lemma {:induction false} RunInvariant(p: DriftParams, s: DriftState, frames: seq<Reading>)
    requires SaneParams(p) && Valid(p, s) && NonNegativeTimes(frames)
    ensures Valid(p, Run(p, s, frames))
    ensures Run(p, s, frames).totalDriftPoints >= s.totalDriftPoints
    decreases |frames|
  {
    if |frames| > 0 {
      UpdatePreservesValid(p, s, frames[0]);
      UpdateMonotone(p, s, frames[0]);
      RunInvariant(p, Update(p, s, frames[0]), frames[1..]);
    }
  }

  /** The worked example with the shipped settings: a 30-degree drift at
      speed 15 held for one second from a fresh meter reaches multiplier
      1.2, angle factor 1/3 and 80 points. */
  lemma OneSecondDriftExample()
    ensures var r := Update(Defaults, Initial, Reading(true, 30.0, 15.0, true, 1.0));
      && r.isDrifting && r.currentMultiplier == 1.2
      && AngleFactor(Defaults, 30.0) == 1.0 / 3.0
      && r.currentDriftPoints == 80.0
  {
  }

  /** Ending a drift worth 120 banks exactly 120. */
  lemma EndDriftExample(s: DriftState, rd: Reading)
    requires s.isDrifting && s.currentDriftPoints == 120.0
    requires rd.controllerPresent && !DriftingNow(Defaults, rd)
    ensures var r := Update(Defaults, s, rd);
      r == DriftState(0.0, 0.0, s.totalDriftPoints + 120.0, 1.0, false)
  {
  }
}

=== FILE: game_ui.dfy ===
/** The race session of `GameUIController`: collected coins, the racing
    and game-over flags, the coin counter text and the timer.

    Awake, coin pickups (forwarded by the coin trigger), bomb hits (which
    trigger game over) and frames arrive as events; `now` stands for the
    engine clock. Rendering the timer with two decimals, the victory and
    cry animations and hiding the win text after its delay are left to the
    engine; the model records what is shown and when. */
module GameUI {
  import opened Optional
  import opened DecimalText

  datatype Session = Session(
    collectedCoins: int,
    totalCoins: int,
    startTime: real,
    isRacing: bool,
    isGameOver: bool,
    coinsText: string,
    shownElapsed: Option<real>,
    winTextShows: nat,
    gameOverShown: bool)

  /** The inspector default for the number of coins to collect. */
  const DefaultTotalCoins := 10

  const CoinsPrefix := "Coins: "

  /** The coin counter, `Coins: <collected>/<total>`. It determines both
      numbers: it reads back exactly. */
  function CoinsText(collected: int, total: int): (text: string)
    ensures |text| > |CoinsPrefix| && text[..|CoinsPrefix|] == CoinsPrefix
    ensures ParseCoinsText(text) == Some((collected, total))
  {
    CoinsTextRoundTrip(collected, total);
    CoinsPrefix + IntToString(collected) + "/" + IntToString(total)
  }

  /** The first position of `c` in `s`, if any. */
  function IndexOf(s: string, c: char): (r: Option<nat>)
    ensures r.Some? ==> r.value < |s| && s[r.value] == c && forall j :: 0 <= j < r.value ==> s[j] != c
    ensures r.None? ==> forall j :: 0 <= j < |s| ==> s[j] != c
    decreases |s|
  {
    if |s| == 0 then None
    else if s[0] == c then Some(0)
    else
      match IndexOf(s[1..], c)
      case Some(k) => Some(k + 1)
      case None => None
  }

  /** Reads a coin counter back into its two numbers. */
  function ParseCoinsText(s: string): Option<(int, int)>
  {
    if |s| < |CoinsPrefix| || s[..|CoinsPrefix|] != CoinsPrefix then None
    else
      var body := s[|CoinsPrefix|..];
      match IndexOf(body, '/')
      case None => None
      case Some(k) =>
        match (ParseInt(body[..k]), ParseInt(body[k + 1..]))
        case (Some(a), Some(b)) => Some((a, b))
        case _ => None
  }

  /** The counter's text reads back to the two numbers it was written
      from. */
  lemma CoinsTextRoundTrip(collected: int, total: int)
    ensures ParseCoinsText(CoinsPrefix + IntToString(collected) + "/" + IntToString(total)) == Some((collected, total))
  {
    var a := IntToString(collected);
    var b := IntToString(total);
    var s := CoinsPrefix + a + "/" + b;
    var body := a + "/" + b;
    assert s == CoinsPrefix + body;
    assert s[..|CoinsPrefix|] == CoinsPrefix;
    assert s[|CoinsPrefix|..] == body;
    assert body[|a|] == '/';
    assert forall j :: 0 <= j < |a| ==> body[j] == a[j];
    assert IndexOf(body, '/') == Some(|a|);
    assert body[..|a|] == a;
    assert body[|a| + 1..] == b;
    IntRoundTrip(collected);
    IntRoundTrip(total);
  }

  /** `Awake`: racing, no coins, clock started, counter written. */
  function Awake(totalCoins: int, now: real): (s: Session)
    ensures Consistent(s)
    ensures s.isRacing && !s.isGameOver && s.collectedCoins == 0 && s.totalCoins == totalCoins
    ensures s.startTime == now && s.shownElapsed.None?
  {
    Session(0, totalCoins, now, true, false, CoinsText(0, totalCoins), None, 0, false)
  }

  /** `CollectCoin`: ignored after game over; otherwise one more coin, and
      reaching the total starts the win display, which stops the race
      without making it game over. Every pickup at or past the total starts
      the win display again. */
  function CollectCoin(s: Session): (r: Session)
    ensures s.isGameOver ==> r == s
    ensures !s.isGameOver ==>
              && r.collectedCoins == s.collectedCoins + 1
              && r.coinsText == CoinsText(r.collectedCoins, r.totalCoins)
              && (r.isRacing <==> s.isRacing && r.collectedCoins < s.totalCoins)
              && (r.winTextShows == s.winTextShows + 1 <==> r.collectedCoins >= s.totalCoins)
              && (r.winTextShows == s.winTextShows <==> r.collectedCoins < s.totalCoins)
    ensures r.isGameOver == s.isGameOver && r.totalCoins == s.totalCoins && r.startTime == s.startTime
    ensures r.shownElapsed == s.shownElapsed && r.gameOverShown == s.gameOverShown
  {
    if s.isGameOver then s
    else
      var counted := s.(collectedCoins := s.collectedCoins + 1,
                        coinsText := CoinsText(s.collectedCoins + 1, s.totalCoins));
      if counted.collectedCoins >= counted.totalCoins then ShowWinText(counted) else counted
  }

  /** The part of `ShowWinText` that runs before its first wait: the race
      stops and the win text is shown once more; nothing else changes. */
  function ShowWinText(s: Session): (r: Session)
    ensures !r.isRacing && r.winTextShows == s.winTextShows + 1
    ensures r.(isRacing := s.isRacing, winTextShows := s.winTextShows) == s
  {
    s.(isRacing := false, winTextShows := s.winTextShows + 1)
  }

  /** `TriggerGameOver`: stops the race and shows the game-over text once;
      later calls change nothing. */
  function TriggerGameOver(s: Session): (r: Session)
    ensures r.isGameOver
    ensures !s.isGameOver ==> !r.isRacing && r.gameOverShown && r.isGameOver
    ensures s.isGameOver ==> r == s
    ensures r.collectedCoins == s.collectedCoins && r.coinsText == s.coinsText
    ensures r.winTextShows == s.winTextShows && r.shownElapsed == s.shownElapsed
  {
    if s.isGameOver then s
    else s.(isRacing := false, isGameOver := true, gameOverShown := true)
  }

  /** `Update`: the timer shows the elapsed time only while racing. */
  function Update(s: Session, now: real): (r: Session)
    ensures s.isRacing ==> r.shownElapsed == Some(now - s.startTime)
    ensures !s.isRacing ==> r == s
    ensures r.(shownElapsed := s.shownElapsed) == s
  {
    if s.isRacing then s.(shownElapsed := Some(now - s.startTime)) else s
  }

  datatype Event = CoinCollected | BombHit | Frame(now: real)

  function Step(s: Session, e: Event): Session
  {
    match e
    case CoinCollected => CollectCoin(s)
    case BombHit => TriggerGameOver(s)
    case Frame(now) => Update(s, now)
  }

  function Run(s: Session, events: seq<Event>): Session
    decreases |events|
  {
    if |events| == 0 then s else Run(Step(s, events[0]), events[1..])
  }

  /** What every reachable session satisfies: the counter matches the
      numbers, coins are never negative, game over and a shown win both
      mean the race has stopped, and the game-over text is shown exactly
      when the game is over. */
  predicate Consistent(s: Session)
  {
    && s.coinsText == CoinsText(s.collectedCoins, s.totalCoins)
    && s.collectedCoins >= 0
    && (s.isGameOver ==> !s.isRacing)
    && (s.winTextShows > 0 ==> !s.isRacing)
    && (s.gameOverShown <==> s.isGameOver)
  }

  /** One event keeps the session consistent, never loses a coin, keeps
      the total and start time, keeps a stopped race stopped with its timer
      frozen, and after game over counts no coin. */
  lemma StepConsistent(s: Session, e: Event)
    requires Consistent(s)
    ensures var r := Step(s, e);
      && Consistent(r)
      && r.collectedCoins >= s.collectedCoins
      && r.totalCoins == s.totalCoins && r.startTime == s.startTime
      && (!s.isRacing ==> !r.isRacing && r.shownElapsed == s.shownElapsed)
      && (s.isGameOver ==> r.isGameOver && r.collectedCoins == s.collectedCoins)
  {
  }

  /** Over any event sequence: the session stays consistent, coins never
      decrease, the total and the start time never change, a stopped race
      stays stopped with its timer frozen, and after game over no coin
      counts any more. */
  lemma {:induction false} RunProperties(s: Session, events: seq<Event>)
    requires Consistent(s)
    ensures var r := Run(s, events);
      && Consistent(r)
      && r.collectedCoins >= s.collectedCoins
      && r.totalCoins == s.totalCoins && r.startTime == s.startTime
      && (!s.isRacing ==> !r.isRacing && r.shownElapsed == s.shownElapsed)
      && (s.isGameOver ==> r.isGameOver && r.collectedCoins == s.collectedCoins)
    decreases |events|
  {
    if |events| > 0 {
      StepConsistent(s, events[0]);
      RunProperties(Step(s, events[0]), events[1..]);
    }
  }

  /** Reaching the total wins: the race stops but it is not game over, so
      pickups still count afterwards. */
  lemma WinIsNotGameOver(s: Session)
    requires Consistent(s) && !s.isGameOver && s.collectedCoins + 1 >= s.totalCoins
    ensures var r := CollectCoin(s);
      !r.isRacing && !r.isGameOver && CollectCoin(r).collectedCoins == r.collectedCoins + 1
  {
  }

  /** Game over twice is game over once. */
  lemma GameOverIdempotent(s: Session)
    ensures TriggerGameOver(TriggerGameOver(s)) == TriggerGameOver(s)
  {
  }

  /** One pickup while racing below the total: one coin more, and the win
      display starts exactly when the total is reached. */
  lemma CoinBeforeTotal(r: Session)
    requires r.isRacing && !r.isGameOver && r.winTextShows == 0 && r.collectedCoins < r.totalCoins
    ensures var q := Step(r, CoinCollected);
      && q.collectedCoins == r.collectedCoins + 1 && q.totalCoins == r.totalCoins && !q.isGameOver
      && (q.isRacing <==> q.collectedCoins < r.totalCoins)
      && q.winTextShows == (if q.collectedCoins == r.totalCoins then 1 else 0)
  {
  }

  /** `n` coin pickups in a row. */
  function Pickups(n: nat): (evs: seq<Event>)
    ensures |evs| == n && forall k :: 0 <= k < n ==> evs[k] == CoinCollected
  {
    if n == 0 then [] else [CoinCollected] + Pickups(n - 1)
  }

  /** Collecting exactly the missing coins during a race wins it, once,
      without game over. */
  lemma {:induction false} CollectRemaining(r: Session, n: nat)
    requires n >= 1 && r.collectedCoins + n == r.totalCoins
    requires r.isRacing && !r.isGameOver && r.winTextShows == 0
    ensures var q := Run(r, Pickups(n));
      q.collectedCoins == r.totalCoins && !q.isRacing && !q.isGameOver && q.winTextShows == 1
    decreases n
  {
    CoinBeforeTotal(r);
    var next := Step(r, CoinCollected);
    assert Pickups(n)[1..] == Pickups(n - 1);
    assert Run(r, Pickups(n)) == Run(next, Pickups(n - 1));
    if n > 1 {
      CollectRemaining(next, n - 1);
    }
  }

  /** With the default ten coins, ten pickups from a fresh session win. */
  lemma TenCoinsWin(now: real)
    ensures var r := Run(Awake(DefaultTotalCoins, now), Pickups(10));
      r.collectedCoins == 10 && !r.isRacing && !r.isGameOver && r.winTextShows == 1
  {
    CollectRemaining(Awake(DefaultTotalCoins, now), 10);
  }
}

=== FILE: optional.dfy ===
/** The Some/None wrapper used where the engine may hand back "nothing"
    (a missing target, an unset preference, a ray that hit nothing). */
module Optional {

  datatype Option<+T> = None | Some(value: T) {

    /** The wrapped value, or `default` when there is none. */
    function GetOr(default: T): (r: T)
      ensures Some? ==> r == value
      ensures None? ==> r == default
    {
      match this
      case Some(v) => v
      case None => default
    }
  }
}

=== FILE: selectable_car.dfy ===
/** Picking a car in the selection scene (`SelectableCar`): a click is
    accepted only if at least `doubleClickTime` has passed since the last
    accepted one; an accepted click stores the car's name as the selection
    preference and removes every other "Car"-tagged object.

    Scene objects are identified by `CarId`; the preference store and the
    set of tagged objects are the `World`. Camera set-up is rendering and
    is not modelled. */
module SelectableCar {
  import opened Optional

  /** The engine's identity of a scene object. */
  type CarId = nat

  /** The inspector settings of one selectable car and its own identity. */
  datatype Config = Config(carName: string, doubleClickTime: real, self: CarId)

  /** `lastClickTime` is never initialised, so it starts at zero. */
  const InitialLastClickTime := 0.0

  /** What a click reads and writes outside the car: the stored selection
      and the objects tagged "Car", in the order the engine lists them. */
  datatype World = World(selectedCar: Option<string>, cars: seq<CarId>)

  datatype Click = Click(lastClickTime: real, world: World, accepted: bool)

  /** `CleanupOtherCars`: every tagged object other than this car goes. */
  function CleanupOtherCars(self: CarId, cars: seq<CarId>): (r: seq<CarId>)
    ensures forall i :: 0 <= i < |r| ==> r[i] == self
    ensures multiset(r)[self] == multiset(cars)[self]
    decreases |cars|
  {
    if |cars| == 0 then []
    else
      assert cars == [cars[0]] + cars[1..];
      (if cars[0] == self then [self] else []) + CleanupOtherCars(self, cars[1..])
  }

  /** When this car is listed once, it is all that remains. */
  lemma OnlySelfRemains(self: CarId, cars: seq<CarId>)
    requires multiset(cars)[self] == 1
    ensures CleanupOtherCars(self, cars) == [self]
  {
    var r := CleanupOtherCars(self, cars);
    AllSameCount(self, r);
    assert |r| == 1;
  }

  lemma {:induction false} AllSameCount(x: CarId, s: seq<CarId>)
    requires forall i :: 0 <= i < |s| ==> s[i] == x
    ensures multiset(s)[x] == |s|
    decreases |s|
  {
    if |s| > 0 {
      assert s == [s[0]] + s[1..];
      AllSameCount(x, s[1..]);
    }
  }

  /** Whether a click at `now` comes too soon after the last accepted one. */
  predicate TooSoon(c: Config, lastClickTime: real, now: real)
  {
    now - lastClickTime < c.doubleClickTime
  }

  /** `OnMouseDown`. */
  function OnMouseDown(c: Config, lastClickTime: real, w: World, now: real): (r: Click)
    ensures r.accepted <==> now - lastClickTime >= c.doubleClickTime
    ensures !r.accepted ==> r == Click(lastClickTime, w, false)
    ensures r.accepted ==> r.lastClickTime == now && r.world.selectedCar == Some(c.carName)
    ensures r.accepted ==> forall i :: 0 <= i < |r.world.cars| ==> r.world.cars[i] == c.self
    ensures r.accepted ==> (c.self in r.world.cars <==> c.self in w.cars)
  {
    if TooSoon(c, lastClickTime, now) then Click(lastClickTime, w, false)
    else Click(now, World(Some(c.carName), CleanupOtherCars(c.self, w.cars)), true)
  }

  /** A sequence of clicks, returning the final click state and the times of
      the clicks that were accepted. */
  function RunClicks(c: Config, lastClickTime: real, w: World, times: seq<real>): (r: (Click, seq<real>))
    decreases |times|
  {
    if |times| == 0 then (Click(lastClickTime, w, false), [])
    else
      var first := OnMouseDown(c, lastClickTime, w, times[0]);
      var rest := RunClicks(c, first.lastClickTime, first.world, times[1..]);
      (rest.0, if first.accepted then [times[0]] + rest.1 else rest.1)
  }

  /** Accepted clicks are spaced: the first is at least `doubleClickTime`
      after the starting `lastClickTime`, each later one at least that long
      after the previous accepted one, and the final `lastClickTime` is the
      last accepted time. */
  lemma {:induction false} AcceptedClicksSpaced(c: Config, lastClickTime: real, w: World, times: seq<real>)
    ensures var (fin, acc) := RunClicks(c, lastClickTime, w, times);
      && (|acc| > 0 ==> acc[0] - lastClickTime >= c.doubleClickTime)
      && (forall i :: 0 < i < |acc| ==> acc[i] - acc[i - 1] >= c.doubleClickTime)
      && fin.lastClickTime == (if |acc| > 0 then acc[|acc| - 1] else lastClickTime)
    decreases |times|
  {
    if |times| > 0 {
      var first := OnMouseDown(c, lastClickTime, w, times[0]);
      AcceptedClicksSpaced(c, first.lastClickTime, first.world, times[1..]);
    }
  }

  /** From the initial state every click earlier than `doubleClickTime` is
      ignored. */
  lemma EarlyClickIgnored(c: Config, w: World, now: real)
    requires now < c.doubleClickTime
    ensures OnMouseDown(c, InitialLastClickTime, w, now) == Click(InitialLastClickTime, w, false)
  {
  }
}

=== FILE: unity_math.dfy ===
/** The `Mathf` helpers the scripts call, over exact reals.
    Each follows the engine's definition, including its edge cases:
    `Lerp` clamps its parameter to [0,1] and `InverseLerp` answers 0 when
    both ends coincide. */
module UnityMath {

  /** `Mathf.Min`: the first argument unless the second is strictly smaller. */
  function Min(a: real, b: real): (r: real)
    ensures r <= a && r <= b
    ensures r == a || r == b
  {
    if a < b then a else b
  }

  /** `Mathf.Max`. */
  function Max(a: real, b: real): (r: real)
    ensures r >= a && r >= b
    ensures r == a || r == b
  {
    if a > b then a else b
  }

  function Abs(a: real): (r: real)
    ensures r >= 0.0
    ensures r == a || r == -a
  {
    if a < 0.0 then -a else a
  }

  /** `Mathf.Clamp`: the lower bound is tested first, so with `lo > hi`
      every value at or above `lo` ends up at `hi`. */
  function Clamp(value: real, lo: real, hi: real): (r: real)
    ensures lo <= hi ==> lo <= r <= hi
    ensures lo <= value <= hi ==> r == value
    ensures value < lo ==> r == lo
    ensures lo <= hi && value > hi ==> r == hi
  {
    if value < lo then lo else if value > hi then hi else value
  }

  /** `Mathf.Clamp01`. */
  function Clamp01(value: real): (r: real)
    ensures 0.0 <= r <= 1.0
    ensures 0.0 <= value <= 1.0 ==> r == value
    ensures value < 0.0 ==> r == 0.0
    ensures value > 1.0 ==> r == 1.0
  {
    Clamp(value, 0.0, 1.0)
  }

  /** `Mathf.InverseLerp(a, b, value)`: where `value` sits between `a` and
      `b`, as a fraction clamped to [0,1]; 0 when `a == b`. */
  function InverseLerp(a: real, b: real, value: real): (r: real)
    ensures 0.0 <= r <= 1.0
    ensures a == b ==> r == 0.0
    ensures a < b && a <= value <= b ==> a + r * (b - a) == value
    ensures a < b && value <= a ==> r == 0.0
    ensures a < b && value >= b ==> r == 1.0
    ensures b < a && b <= value <= a ==> a + r * (b - a) == value
    ensures b < a && value >= a ==> r == 0.0
    ensures b < a && value <= b ==> r == 1.0
  {
    if a != b then
      var q := (value - a) / (b - a);
      FractionBounds(a, b, value);
      assert a < b && a <= value <= b ==> Clamp01(q) == q;
      assert b < a && b <= value <= a ==> Clamp01(q) == q;
      Clamp01(q)
    else 0.0
  }

  lemma FractionBounds(a: real, b: real, value: real)
    requires a != b
    ensures a < b && value <= a ==> (value - a) / (b - a) <= 0.0
    ensures a < b && value >= b ==> (value - a) / (b - a) >= 1.0
    ensures a < b && a <= value <= b ==>
              0.0 <= (value - a) / (b - a) <= 1.0 && a + (value - a) / (b - a) * (b - a) == value
    ensures b < a && value >= a ==> (value - a) / (b - a) <= 0.0
    ensures b < a && value <= b ==> (value - a) / (b - a) >= 1.0
    ensures b < a && b <= value <= a ==>
              0.0 <= (value - a) / (b - a) <= 1.0 && a + (value - a) / (b - a) * (b - a) == value
  {
    var q := (value - a) / (b - a);
    assert q * (b - a) == value - a;
    if a < b {
      DivSign(value - a, b - a);
    } else {
      assert (a - value) / (a - b) == q;
      DivSign(a - value, a - b);
    }
  }

  /** How a quotient by a positive denominator compares with 0 and 1. */
  lemma DivSign(n: real, d: real)
    requires d > 0.0
    ensures n <= 0.0 ==> n / d <= 0.0
    ensures n >= 0.0 ==> n / d >= 0.0
    ensures n >= d ==> n / d >= 1.0
    ensures n <= d ==> n / d <= 1.0
  {
    var q := n / d;
    assert q * d == n;
    if n <= 0.0 && q > 0.0 {
      MulPos(q, d);
    }
    if n >= 0.0 && q < 0.0 {
      MulPos(-q, d);
    }
    if n >= d && q < 1.0 {
      MulPos(1.0 - q, d);
    }
    if n <= d && q > 1.0 {
      MulPos(q - 1.0, d);
    }
  }

  lemma MulNonneg(x: real, y: real)
    requires x >= 0.0 && y >= 0.0
    ensures x * y >= 0.0
  {
  }

  lemma MulPos(x: real, y: real)
    requires x > 0.0 && y > 0.0
    ensures x * y > 0.0
  {
  }

  /** `Mathf.Lerp(a, b, t)` with `t` clamped to [0,1]. */
  function Lerp(a: real, b: real, t: real): (r: real)
    ensures Min(a, b) <= r <= Max(a, b)
    ensures t <= 0.0 ==> r == a
    ensures t >= 1.0 ==> r == b
    ensures 0.0 <= t <= 1.0 ==> b - r == (b - a) * (1.0 - t)
  {
    var u := Clamp01(t);
    LerpBetween(a, b, u);
    a + (b - a) * u
  }

  /** A convex combination lies between its two ends. */
  lemma LerpBetween(a: real, b: real, u: real)
    requires 0.0 <= u <= 1.0
    ensures Min(a, b) <= a + (b - a) * u <= Max(a, b)
  {
    if a <= b {
      MulNonneg(b - a, u);
      MulNonneg(b - a, 1.0 - u);
      assert (b - a) * u + (b - a) * (1.0 - u) == b - a;
    } else {
      MulNonneg(a - b, u);
      MulNonneg(a - b, 1.0 - u);
      assert (a - b) * u + (a - b) * (1.0 - u) == a - b;
    }
  }
}

=== FILE: vectors.dfy ===
/** Exact three-component vectors standing in for the engine's `Vector3`. */
module Vectors {

  datatype Vec3 = Vec3(x: real, y: real, z: real)

  const Zero := Vec3(0.0, 0.0, 0.0)

  function Add(a: Vec3, b: Vec3): Vec3
  {
    Vec3(a.x + b.x, a.y + b.y, a.z + b.z)
  }

  function Sub(a: Vec3, b: Vec3): Vec3
  {
    Vec3(a.x - b.x, a.y - b.y, a.z - b.z)
  }

  function Scale(v: Vec3, k: real): Vec3
  {
    Vec3(v.x * k, v.y * k, v.z * k)
  }

  /** The dot product; `Dot(v, v)` is the squared length of `v`. */
  function Dot(a: Vec3, b: Vec3): real
  {
    a.x * b.x + a.y * b.y + a.z * b.z
  }
}
